=== FILE: README.md ===
# Transcoding companion — a Dafny model of its file pipeline

Transcoding companion tidies a folder of downloaded movies. For each video file it:

1. Renames the file to `Title (Year)` plus its extension. `scripts/rename.py` does this by running `scripts/title.py`, which asks the OMDb web service for the canonical title.
2. Measures the mean audio level with ffmpeg (`scripts/audio_test.py`).
3. Moves the file to a destination directory when the audio level is below -35 dB (`main.py`).

`scripts/video_test.py` separately checks with ffprobe and ffmpeg's blackdetect filter that a video has a stream and not too many black sections.

The model covers these steps:

- Query cleaning, year detection and reply formatting of `title.py`.
- The rename decision and the rename itself (`rename.py`).
- Parsing of ffmpeg's `mean_volume` line (`audio_test.py`).
- The video verdict (`video_test.py`).
- The batch loop of `main.py`, which works over a file system object.

How the parts are modelled:

- **File system.** It is a class with a map from path to content and a set of directories. Its methods model `os.rename`, `shutil.move` and `os.makedirs`.
- **External programs and services.** These are parameters, as values or as functions from their input to their result:
  - a subprocess run is a `Run` (completed with return code and output, or failed with an exception);
  - the OMDb lookup is a function from the query to the decoded reply;
  - `float()` is a partial parse;
  - the API key from the environment is an `Option`.
- **Exceptions.** An exception the source does not catch is an `Outcome.Raise` result.

Modules:

- `outcomes.dfy`: Option, Outcome, Error and Run.
- `strings.dfy`: the `str` methods used: strip, split, replace, count, `in` and lower.
- `paths.dfy`: `posixpath` dirname, basename, splitext and join.
- `files.dfy`: the file system.
- `title.dfy`, `rename.dfy`, `audio.dfy`, `video.dfy` and `batch.dfy`: one module per script.

`main.py` calls `rename.process_file` and `audio_test.check_audio_level`, but neither script defines them. The model therefore takes the per-file rename and audio results as parameters. As written, those calls raise `AttributeError`, and the `except Exception` at line 37 catches it. That case is the `Raise(AttributeError)` result a parameter may give.

## Model

| member | source | states |
|---|---|---|
| Strings.Strip | scripts/rename.py:32 | str.strip(): the result is the input with its maximal leading and trailing whitespace runs removed; it is empty or starts and ends with a non-space |
| Strings.StripAppendSpaces | scripts/title.py:73 | appending whitespace (the newline print adds) does not change the stripped text |
| Strings.StripTrimmed | scripts/rename.py:32 | a text that starts and ends with a non-space is its own strip |
| Strings.StripKeepsOut | scripts/title.py:53 | strip() never introduces a character the text did not hold |
| Strings.CountPositive | scripts/video_test.py:41-44 | str.count of a non-empty pattern is positive exactly when the pattern occurs (`in`) |
| Strings.Count | scripts/video_test.py:44 | str.count counts non-overlapping occurrences: n counted occurrences of a pattern take up n times its length; its exact value is given by Strings.CountIsOccurrences |
| Strings.CountIsOccurrences | scripts/video_test.py:44 | for a pattern that cannot overlap itself (`Strings.SelfDisjoint`), str.count is the number of positions at which the pattern occurs |
| Strings.NoOccurrenceInside | scripts/video_test.py:44 | an occurrence of such a pattern hides no other occurrence starting inside it |
| Strings.FirstCharOnce | scripts/video_test.py:44 | a pattern whose first character appears nowhere else in it cannot overlap itself |
| Strings.CountAppend | scripts/video_test.py:44 | appending text never lowers the count of a pattern |
| Strings.Replace | scripts/title.py:24 | str.replace leaves a text without the pattern unchanged, never lengthens it when the replacement is no longer than the pattern, and keeps its length when both are as long |
| Strings.ReplaceDropsSuffix | scripts/audio_test.py:33 | replacing " dB" by nothing removes the unit from a number free of spaces |
| Strings.FirstIndex | scripts/title.py:53 | the position of the first occurrence of a character |
| Strings.Split | scripts/audio_test.py:30 | str.split(sep) always gives at least one part (an empty text gives one empty part); the parts themselves are characterised by Strings.SplitParts |
| Strings.SplitParts | scripts/audio_test.py:30 | str.split(sep): no part holds sep, there is one part exactly when sep does not occur, and joining the parts with sep gives the input back |
| Strings.SplitAppend | scripts/audio_test.py:30 | splitting a + sep + b gives the parts of a followed by the parts of b |
| Strings.SplitFirst | scripts/title.py:53 | the first part of a split is the text before the first separator |
| Paths.Basename | scripts/rename.py:19 | os.path.basename: the part after the last '/', free of '/', and the path is its head followed by it |
| Paths.Dirname | scripts/rename.py:18 | os.path.dirname: empty without a '/'; otherwise a non-empty prefix ending no later than the last '/', with only '/' between its end and that '/', ending in a non-slash unless the whole head is slashes, in which case it is the head |
| Paths.SplitExt | scripts/rename.py:22-25 | os.path.splitext: root + ext is the name; ext is empty or one leading dot and no other dot or '/'; the extension is non-empty exactly when the last component has a dot after some non-dot character, and it then starts at the last dot (".bashrc" has none, "movie.mkv" has ".mkv") |
| Paths.Join | scripts/rename.py:37 | os.path.join: an absolute second part replaces the first; otherwise the parts are concatenated when the first is empty or ends with '/', and joined with one '/' between them when it does not; the result ends with the second part, and a slash-free second part is the basename of the result |
| Paths.JoinAfterTrailingSeparator | main.py:16 | a directory with a trailing '/' gets no second one: "videos/" and "videos" both join "a.mkv" to "videos/a.mkv" |
| Paths.JoinThenSplit | scripts/rename.py:37 | joining a directory and a slash-free name, dirname and basename give them back |
| Files.MovedFile | scripts/rename.py:40 | after a move the destination holds the source's content, the source is gone unless it is the destination, and every other path is unchanged |
| Files.MoveTarget | main.py:30 | where shutil.move puts the file: the destination itself unless it is a directory; for a directory, the directory followed by the source's basename, with a '/' put between them exactly when the directory is non-empty and does not already end with '/' |
| Files.MoveRaises | main.py:30 | shutil.move raises only when the destination is an existing directory (that already holds the entry) |
| Files.FileSystem.Rename | scripts/rename.py:40 | os.rename raises OSError onto a directory, otherwise moves the file, replacing any file at the destination |
| Files.FileSystem.Move | main.py:30 | shutil.move into an existing directory moves the file into it, raising when that entry already exists; otherwise moves it to the path |
| Files.FileSystem.MakeDirs | main.py:9 | os.makedirs(exist_ok=True) raises for an empty path or an existing file, otherwise the directory exists afterwards and no file changed |
| Title.CleanTitle | scripts/title.py:24 | the cleaned title holds no '.', '(' or ')' |
| Title.CleanTitleCharwise | scripts/title.py:24 | the three chained replaces act character by character: '.' becomes a space, '(' and ')' vanish |
| Title.CleanTitleIdempotent | scripts/title.py:24 | cleaning a cleaned title changes nothing |
| Title.YearAtIsYearNumber | scripts/title.py:27 | a year token (`Title.YearAt`) is exactly a four-digit number from 1900 to 2099 that is not glued to a word character on either side |
| Title.YearMatchesFrom | scripts/title.py:27 | re.finditer for a 19xx/20xx word: every reported position is a year token, every year token is reported, and matches do not overlap |
| Title.NoYearToken | scripts/title.py:27-29 | finditer finds no match exactly when the text has no year token |
| Title.OnlyYearToken | scripts/title.py:27-29 | finditer finds exactly the one match k exactly when k is the text's only year token |
| Title.YearTokenBoundaries | scripts/title.py:27 | the word boundaries matter: "Movie 2019" has a year at 6, "20192" and "A2019" have none |
| Title.Query | scripts/title.py:24-39 | the query sent to OMDb holds no '.', '(' or ')' |
| Title.CutAtLastYear | scripts/title.py:27-39 | cutting at the last year token keeps only characters of the cleaned title |
| Title.CutsAtLastYear | scripts/title.py:29-33 | with a last year token, the cut is the stripped text before that token |
| Title.QueryWithoutYear | scripts/title.py:29 | without a year token the query is the cleaned title |
| Title.QueryCutsAtLastYear | scripts/title.py:29-39 | with a last year token the query is the stripped text before it, and any earlier year token survives in the query, shifted by the leading spaces stripped |
| Title.LastMatch | scripts/title.py:31-33 | the last element of the finditer result is the last year token |
| Title.EarlierYearKept | scripts/title.py:35-39 | a year token before the last one is still a year token of the stripped prefix |
| Title.YearTokensApart | scripts/title.py:27 | two year tokens never overlap: a later one starts at least four characters after an earlier one |
| Title.YearInSlice | scripts/title.py:33 | a year token lying inside a slice stays a year token of the slice |
| Title.ShortTitle | scripts/title.py:51-53 | the returned title holds no '('; without '(' it is the title, with one it is the stripped text before the first '(' |
| Title.FormattedShape | scripts/title.py:53-56 | "<title> (<year>)" for a title without '(': its first '(' follows the title and a space, and the year lies between it and the closing ')' |
| Title.FormatReply | scripts/title.py:44-61 | None exactly for a failed request or a Response other than "True"; TypeError for a "True" reply without Title; otherwise "<short title> (<year>)" |
| Title.GetProperTitle | scripts/title.py:9-61 | a missing or empty API key raises ValueError before any request; with a key, for the reply to the query: None exactly when the request failed or Response is not "True", TypeError for a "True" reply without Title, otherwise "<title cut at its first '(' and stripped> (<year>)" |
| Title.ScriptOutput | scripts/title.py:59-75 | title.py prints nothing after an exception, the title and a newline when one is found, the failure message when none is, preceded by the "Error fetching data from OMDb" line when the request failed |
| Rename.Accepts | scripts/rename.py:34 | the output is used exactly when it is non-empty and "not found" occurs in it zero times; the failure message is never used |
| Rename.NewPath | scripts/rename.py:36-37 | the new path ends with title + extension; with a title free of '/' it lies in the file's own directory and is named title + extension |
| Rename.PlanRename | scripts/rename.py:13-37 | missing file, failed title run (carrying the run's own exception), rejected title and rename are told apart as the source's branches do; a rename goes into the file's own directory under title + extension |
| Rename.RenameMovieFile | scripts/rename.py:13-49 | missing file, SubprocessError or rejected title give False with no change; other run errors propagate; an accepted title renames the file into its own directory as title + extension (OSError onto a directory) and gives True |
| Rename.StemExtensionRoundTrip | scripts/rename.py:22-25 | stem + extension is the file name, and the extension is empty or a dot with no further dot |
| Rename.RenameExample | scripts/rename.py:18-37 | "Movies/heat.1995.mkv" has stem "heat.1995" and extension ".mkv", and the title "Heat (1995)" renames it to "Movies/Heat (1995).mkv" |
| Rename.ExampleBasename | scripts/rename.py:19 | the basename of "Movies/heat.1995.mkv" is "heat.1995.mkv" |
| Rename.ExampleSplitExt | scripts/rename.py:22-25 | splitext of "heat.1995.mkv" is ("heat.1995", ".mkv") |
| Rename.ExampleDirname | scripts/rename.py:18 | the dirname of "Movies/heat.1995.mkv" is "Movies" |
| Rename.ExampleJoin | scripts/rename.py:37 | joining "Movies" and "Heat (1995).mkv" puts one '/' between them |
| Rename.MessageHoldsNotFound | scripts/title.py:75 | the failure message holds "not found" |
| Rename.RejectsFailureOutput | scripts/rename.py:32-34 | title.py's failure output, with or without the request-error line before it, is never used as a title |
| Rename.AcceptsExactlyFoundTitles | scripts/rename.py:32-34 | title.py's output is accepted exactly when a title was found whose stripped text does not hold "not found"; a crash, a failed request and the failure message are rejected |
| Audio.GetAverageVolume | scripts/audio_test.py:13-47 | a failed ffmpeg run gives None; no stderr line holding "mean_volume" gives None; otherwise the result is float() of the value text of the first such line, and None when that line has no ':'; a value implies the output holds "mean_volume" and ':' |
| Audio.FirstMeanVolumeLine | scripts/audio_test.py:30-31 | the first line holding "mean_volume": no earlier line holds it |
| Audio.ValueText | scripts/audio_test.py:33 | a line yields a value text exactly when it holds ':' (else the IndexError is caught) |
| Audio.SplitAtFirstColon | scripts/audio_test.py:33 | split(':') of a line gives the text before its first ':' and then the parts of the text after it |
| Audio.ValueTextSecondField | scripts/audio_test.py:33 | the value text is the second ':'-separated field (from the first ':' to the next ':' or the end of the line), stripped and with " dB" removed |
| Audio.FirstLineOfAppend | scripts/audio_test.py:30-34 | lines added after a matching line do not move the first match |
| Audio.LaterLinesIgnored | scripts/audio_test.py:30-34 | once a mean_volume line is written, later stderr output does not change the result |
| Audio.JoinedPartContains | scripts/audio_test.py:30-31 | a line of the split output holding a pattern means the whole output holds it |
| Audio.FirstLineAfterOthers | scripts/audio_test.py:30-31 | lines without "mean_volume" in front only shift the first match by their number |
| Audio.AverageOfVolumeReport | scripts/audio_test.py:13-47 | for stderr made of lines without "mean_volume" followed by "<prefix>: <number> dB" with a prefix naming mean_volume, the result is float() of the number's text |
| Audio.VolumeLineIsLast | scripts/audio_test.py:30 | the volume line, free of newlines, is the last line of the split stderr |
| Audio.LastLine | scripts/audio_test.py:30 | a newline-free text after a final newline is one more part of split('\n') |
| Audio.TwoFields | scripts/audio_test.py:33 | a line with a single ':' splits into the text before it and the text after it |
| Audio.StripValueField | scripts/audio_test.py:33 | stripping " <number> dB" leaves "<number> dB" |
| Audio.ValueOfVolumeLine | scripts/audio_test.py:33 | the line "<prefix>: <number> dB" yields the number's text |
| Video.CheckVideoStream | scripts/video_test.py:12-52 | a failed ffprobe (non-zero code) or a SubprocessError from either run fails the video; otherwise the verdict is at most five "black_start" sections; other exceptions propagate |
| Video.MoreBlackNeverPasses | scripts/video_test.py:41-46 | more blackdetect output never turns a failing verdict into a passing one |
| Video.BlackStartSelfDisjoint | scripts/video_test.py:44 | "black_start" cannot overlap itself, so str.count of it is the number of places it occurs |
| Video.BlackSectionThreshold | scripts/video_test.py:41-46 | after a clean ffprobe, the verdict for any blackdetect stderr is: at most five places where "black_start" occurs |
| Video.BlackReportCount | scripts/video_test.py:44 | a report of n black sections counts n "black_start" |
| Video.CountLeadingMatch | scripts/video_test.py:44 | a text starting with the pattern counts one more than the rest |
| Video.NewlineStartsNoSection | scripts/video_test.py:44 | a leading newline adds no "black_start" |
| Video.BlackReportThreshold | scripts/video_test.py:41-46 | with a report of n black sections the verdict is n <= 5: five pass, six fail |
| Batch.IsVideoName | main.py:12-19 | a name passing the extension test ends with a dot and three characters |
| Batch.Step | main.py:16-38 | one listed name: skipped exactly when not a regular file with a video extension; rename failure and audio failure exactly as the checks decide; moved exactly when rename succeeded, the level is below -35 and the move does not raise, to the move target; files change only on a move |
| Batch.RunBatch | main.py:15-38 | one report per listed name |
| Batch.ProcessFile | main.py:16-38 | the loop body changes the files and reports exactly as Step says, directories unchanged |
| Batch.RunBatchOneMore | main.py:15-38 | one more listed name is one more step after the batch so far |
| Batch.ProcessVideoFiles | main.py:7-38 | makedirs errors and listing errors propagate with no file changed; otherwise the destination exists and the files and reports are those of the names processed in listing order |
| Batch.ReportsExplainMoves | main.py:19-30 | a non-video name is skipped; a moved file had a successful rename and a level below -35 and went to the destination joined with its name; an audio failure had no passing level |
| Batch.BatchLeavesOthersAlone | main.py:15-38 | a path that is neither a processed source nor a move target keeps its file and content |
| Batch.UntouchedPrefix | main.py:15-38 | a path no listed name touches is untouched by all names but the last, and by the last |
| Batch.StepLeavesOthersAlone | main.py:16-38 | one step changes nothing at a path other than its source and its move target |
| Batch.FilesLeaveOnlyByMove | main.py:29-30 | a file disappears from its path only through a step that reports moving it |
| Batch.AudioGateIsStrict | main.py:29-33 | a renamed candidate with level l reports an audio failure exactly when l >= -35; at exactly -35 it fails and no file changes |
| Batch.RenameFailureSkipsAudio | main.py:24-26 | a failed rename runs no audio check: the step does not depend on audio results |
| Batch.VideoNameIgnoresCase | main.py:19 | the extension test ignores letter case |

## Left out

- `scripts/handbrake.py` and `precode.py` are not part of this model.
- HTTP, dotenv, subprocess execution, ffmpeg/ffprobe and `float()` are parameters. Nothing about their internals is modelled.
- The OMDb URL is not percent-encoded or built as text. The query string is passed to the lookup parameter as it is.
- Whitespace, `\d`, `\w` and `str.lower` use ASCII character classes, not Python's Unicode ones.
- Printing and logging are not modelled. The `__main__` blocks are not modelled either, apart from what title.py writes to stdout (`Title.ScriptOutput`); its usage message for a missing argument (title.py:65-67) is left out because rename.py always passes one.
- Rename.RenameMovieFile: requires the path not to be a directory. On a directory `os.path.exists` holds, and `os.rename` would move the whole tree, which the file map cannot represent.
- Files.FileSystem.Rename: there is no parent-directory check. A title containing '/' naming a missing directory would raise `FileNotFoundError` in the source, but renames here.
- Files.FileSystem: paths are compared as strings. Trailing or repeated '/', '.' and '..' are not normalised, so two spellings of one path are two entries; for instance a file "dest" and a directory "dest/" can both exist, and `os.makedirs("dest/")` over the file "dest" succeeds here where the source raises.
- Files.FileSystem.MakeDirs: intermediate directories are not created, and a missing parent does not raise.
- Files.FileSystem.Move: cross-device copy, symbolic links and permissions are not modelled. `shutil.move` onto an existing file replaces it, as here.
- Batch.ProcessVideoFiles: the per-file rename and audio results come from the parameters, because main.py calls `rename.process_file` and `audio_test.check_audio_level`, which neither script defines. main.py never calls the video test, so `Video.CheckVideoStream` is not part of the batch.
- Batch.ProcessVideoFiles: the rename result never changes the file system here, and the batch keeps using the old path. A `process_file` that renamed on disk, as `rename_movie_file` does (scripts/rename.py:40), would leave nothing at `file_path`; the audio check (main.py:26) and `shutil.move` (main.py:30) would then look at a missing file, and the renamed file would never be moved. The model does not capture that outcome.
- Batch.ProcessVideoFiles: `os.listdir` order is taken as given by the listing parameter.

=== FILE: audio.dfy ===
/** scripts/audio_test.py: the mean volume ffmpeg's volumedetect filter
    reports on stderr.  The ffmpeg run is a parameter, and so is float(): a
    partial parse that gives None where float() raises ValueError. */
module Audio {
  import opened Outcomes
  import opened Strings

  const MeanVolume: String := "mean_volume"

  /** Lines 30-31: the index of the first line holding "mean_volume", or the
      number of lines when none does. */
  function FirstMeanVolumeLine(lines: seq<String>): (k: nat)
    ensures k <= |lines|
    ensures forall i :: 0 <= i < k ==> !Contains(lines[i], MeanVolume)
    ensures k < |lines| ==> Contains(lines[k], MeanVolume)
  {
    if lines == [] || Contains(lines[0], MeanVolume) then 0
    else 1 + FirstMeanVolumeLine(lines[1..])
  }

  /** Line 33 up to float(): the second ':'-separated field, stripped, with
      " dB" removed.  A line without ':' has no second field; the IndexError
      is caught by the handler at lines 45-47, so the result is None. */
  function ValueText(line: String): (r: Option<String>)
    ensures r.None? <==> ':' !in line
  {
    SplitParts(line, ':');
    var fields := Split(line, ':');
    if |fields| < 2 then None else Some(Replace(Strip(fields[1]), " dB", ""))
  }

  /** The value text comes from the second ':'-separated field: the text
      between the first ':' (at c) and the next ':' or the end of the line (at
      d), stripped and with " dB" removed. */
  lemma ValueTextSecondField(line: String, c: nat, d: nat)
    requires c < d <= |line| && line[c] == ':' && ':' !in line[..c] && ':' !in line[c + 1..d]
    requires d == |line| || line[d] == ':'
    ensures ValueText(line) == Some(Replace(Strip(line[c + 1..d]), " dB", ""))
  {
    var before, after := line[..c], line[c + 1..];
    SplitAtFirstColon(line, c);
    var rest := Split(after, ':');
    assert rest[0] == line[c + 1..d] by {
      if d == |line| {
        assert after == line[c + 1..d];
        SplitNone(after, ':');
      } else {
        assert after[..d - c - 1] == line[c + 1..d];
        SplitFirst(after, ':', d - c - 1);
      }
    }
    assert ([before] + rest)[1] == rest[0];
  }

  /** Splitting at the first ':' gives the text before it, then the parts of
      the text after it. */
  lemma SplitAtFirstColon(line: String, c: nat)
    requires c < |line| && line[c] == ':' && ':' !in line[..c]
    ensures Split(line, ':') == [line[..c]] + Split(line[c + 1..], ':')
  {
    var before, after := line[..c], line[c + 1..];
    assert line == before + [':'] + after;
    SplitAppend(before, after, ':');
    SplitNone(before, ':');
  }

  /** get_average_volume: the value of the first line holding "mean_volume";
      None when the run fails, when no line holds it, or when that line gives
      no value (no ':' or a text float() rejects).  Later lines are not looked
      at. */
  function GetAverageVolume<V>(run: Run, parseFloat: String -> Option<V>): (r: Option<V>)
    ensures run.Failed? ==> r == None
    ensures run.Completed? && FirstMeanVolumeLine(Split(run.stderr, '\n')) == |Split(run.stderr, '\n')| ==> r == None
    ensures run.Completed? && FirstMeanVolumeLine(Split(run.stderr, '\n')) < |Split(run.stderr, '\n')| ==>
              var line := Split(run.stderr, '\n')[FirstMeanVolumeLine(Split(run.stderr, '\n'))];
              r == if ValueText(line).None? then None else parseFloat(ValueText(line).value)
    ensures r.Some? ==> run.Completed? && Contains(run.stderr, MeanVolume) && Contains(run.stderr, ":")
  {
    match run
    case Failed(_) => None
    case Completed(_, _, stderr) =>
      var lines := Split(stderr, '\n');
      var k := FirstMeanVolumeLine(lines);
      if k == |lines| then None
      else match ValueText(lines[k])
        case None => None
        case Some(text) =>
          SplitParts(stderr, '\n');
          JoinedPartContains(lines, '\n', k, MeanVolume);
          var c := FirstIndex(lines[k], ':');
          assert OccursAt(lines[k], ":", c);
          JoinedPartContains(lines, '\n', k, ":");
          parseFloat(text)
  }

  lemma {:induction false} FirstLineOfAppend(xs: seq<String>, ys: seq<String>)
    requires FirstMeanVolumeLine(xs) < |xs|
    ensures FirstMeanVolumeLine(xs + ys) == FirstMeanVolumeLine(xs)
    decreases |xs|
  {
    assert (xs + ys)[0] == xs[0];
    if !Contains(xs[0], MeanVolume) {
      assert (xs + ys)[1..] == xs[1..] + ys;
      FirstLineOfAppend(xs[1..], ys);
    }
  }

  /** Once a line holding "mean_volume" has been written, whatever ffmpeg
      writes after it does not change the result, even when that line gives
      no value. */
  lemma LaterLinesIgnored<V>(rc: int, stdout: String, a: String, b: String, parseFloat: String -> Option<V>)
    requires FirstMeanVolumeLine(Split(a, '\n')) < |Split(a, '\n')|
    ensures GetAverageVolume(Completed(rc, stdout, a + "\n" + b), parseFloat)
         == GetAverageVolume(Completed(rc, stdout, a), parseFloat)
  {
    SplitAppend(a, b, '\n');
    FirstLineOfAppend(Split(a, '\n'), Split(b, '\n'));
    var xs, ys := Split(a, '\n'), Split(b, '\n');
    assert (xs + ys)[FirstMeanVolumeLine(xs)] == xs[FirstMeanVolumeLine(xs)];
  }

  lemma {:induction false} JoinedPartContains(parts: seq<String>, sep: char, k: nat, pat: String)
    requires |parts| >= 1 && k < |parts| && Contains(parts[k], pat)
    ensures Contains(JoinWith(parts, sep), pat)
    decreases k
  {
    var whole := JoinWith(parts, sep);
    if k == 0 {
      assert whole[0..|parts[0]|] == parts[0];
      ContainsInfix(whole, 0, |parts[0]|, pat);
    } else {
      JoinedPartContains(parts[1..], sep, k - 1, pat);
      var tail := JoinWith(parts[1..], sep);
      assert whole == parts[0] + [sep] + tail;
      assert whole[|parts[0]| + 1..|whole|] == tail;
      ContainsInfix(whole, |parts[0]| + 1, |whole|, pat);
    }
  }

  /** No line holds "mean_volume". */
  predicate NoMeanVolumeLine(lines: seq<String>) {
    forall i | 0 <= i < |lines| :: !Contains(lines[i], MeanVolume)
  }

  lemma {:induction false} FirstLineAfterOthers(xs: seq<String>, ys: seq<String>)
    requires NoMeanVolumeLine(xs)
    ensures FirstMeanVolumeLine(xs + ys) == |xs| + FirstMeanVolumeLine(ys)
    decreases |xs|
  {
    if xs == [] {
      assert xs + ys == ys;
    } else {
      assert (xs + ys)[0] == xs[0];
      assert (xs + ys)[1..] == xs[1..] + ys;
      FirstLineAfterOthers(xs[1..], ys);
    }
  }

  /** A typical ffmpeg stderr: lines a without "mean_volume", then the line
      "<prefix>: <number> dB" whose prefix names mean_volume.  The result is
      float() of the number's text. */
  lemma AverageOfVolumeReport<V>(rc: int, stdout: String, a: String, prefix: String, number: String,
                                 parseFloat: String -> Option<V>)
    requires NoMeanVolumeLine(Split(a, '\n'))
    requires Contains(prefix, MeanVolume)
    requires ':' !in prefix && '\n' !in prefix && ':' !in number && number != []
    requires forall i :: 0 <= i < |number| ==> !IsSpace(number[i])
    ensures GetAverageVolume(Completed(rc, stdout, a + "\n" + prefix + ": " + number + " dB"), parseFloat)
         == parseFloat(number)
  {
    var line := prefix + ": " + number + " dB";
    var xs := Split(a, '\n');
    VolumeLineIsLast(a, prefix, number);
    assert Contains(line, MeanVolume) by {
      assert line[0..|prefix|] == prefix;
      ContainsInfix(line, 0, |prefix|, MeanVolume);
    }
    FirstLineAfterOthers(xs, [line]);
    assert (xs + [line])[|xs|] == line;
    ValueOfVolumeLine(prefix, number);
  }

  /** The volume line, free of newlines, is the last line of the report. */
  lemma VolumeLineIsLast(a: String, prefix: String, number: String)
    requires '\n' !in prefix && number != []
    requires forall i :: 0 <= i < |number| ==> !IsSpace(number[i])
    ensures Split(a + "\n" + prefix + ": " + number + " dB", '\n') == Split(a, '\n') + [prefix + ": " + number + " dB"]
  {
    var line := prefix + ": " + number + " dB";
    NoNewlineInVolumeLine(prefix, number);
    assert a + "\n" + prefix + ": " + number + " dB" == a + ['\n'] + line;
    LastLine(a, line);
  }

  lemma NoNewlineInVolumeLine(prefix: String, number: String)
    requires '\n' !in prefix
    requires forall i :: 0 <= i < |number| ==> !IsSpace(number[i])
    ensures '\n' !in prefix + ": " + number + " dB"
  {
    assert '\n' !in number by { assert IsSpace('\n'); }
  }

  /** A last line free of newlines is one more part of the split. */
  lemma LastLine(a: String, line: String)
    requires '\n' !in line
    ensures Split(a + ['\n'] + line, '\n') == Split(a, '\n') + [line]
  {
    SplitAppend(a, line, '\n');
    SplitNone(line, '\n');
  }

  /** The line ffmpeg writes, "<prefix>: <number> dB" with a prefix free of
      ':' and a number free of ':' and whitespace, gives the number's text. */
  lemma ValueOfVolumeLine(prefix: String, number: String)
    requires ':' !in prefix && ':' !in number && number != []
    requires forall i :: 0 <= i < |number| ==> !IsSpace(number[i])
    ensures ValueText(prefix + ": " + number + " dB") == Some(number)
  {
    var field := " " + number + " dB";
    assert prefix + ": " + number + " dB" == prefix + [':'] + field;
    TwoFields(prefix, field);
    StripValueField(number);
    assert ' ' !in number by { assert IsSpace(' '); }
    ReplaceDropsSuffix(number, " dB");
  }

  /** A line with one ':' splits into the text before it and the text after. */
  lemma TwoFields(prefix: String, field: String)
    requires ':' !in prefix && ':' !in field
    ensures Split(prefix + [':'] + field, ':') == [prefix, field]
  {
    SplitAppend(prefix, field, ':');
    SplitNone(prefix, ':');
    SplitNone(field, ':');
  }

  /** Stripping " <number> dB" leaves "<number> dB". */
  lemma StripValueField(number: String)
    requires number != []
    requires forall i :: 0 <= i < |number| ==> !IsSpace(number[i])
    ensures Strip(" " + number + " dB") == number + " dB"
  {
    var field := " " + number + " dB";
    assert field[1..] == number + " dB";
    assert LeadingSpaces(field) == 1;
    ContentEndUnique(field, |field|);
  }
}

=== FILE: batch.dfy ===
/** main.py: process_video_files moves every video file of the source
    directory whose rename succeeds and whose audio level is below -35 dB into
    the destination directory.  The per-file rename and audio results come
    from rename.process_file and audio_test.check_audio_level, which neither
    script defines; they are parameters here, and an exception they raise is
    a Raise result (AttributeError for the code as it stands). */
module Batch {
  import opened Outcomes
  import opened Strings
  import opened Paths
  import opened Files

  /** Line 12. */
  const VideoExtensions: seq<String> := [".mp4", ".avi", ".mov", ".mkv", ".wmv"]

  /** Line 19: the lower-cased name ends with one of the video extensions, so
      it ends with a dot and three more characters. */
  predicate IsVideoName(name: String): (r: bool)
    ensures r ==> 4 <= |name| && name[|name| - 4] == '.'
  {
    VideoExtensionsStartWithDot(name);
    exists i | 0 <= i < |VideoExtensions| :: EndsWith(Lower(name), VideoExtensions[i])
  }

  lemma VideoExtensionsStartWithDot(name: String)
    ensures (exists i | 0 <= i < |VideoExtensions| :: EndsWith(Lower(name), VideoExtensions[i])) ==>
              4 <= |name| && name[|name| - 4] == '.'
  {
    if i :| 0 <= i < |VideoExtensions| && EndsWith(Lower(name), VideoExtensions[i]) {
      var ext := VideoExtensions[i];
      assert |ext| == 4 && ext[0] == '.';
      var lower := Lower(name);
      assert lower[|name| - 4] == lower[|lower| - |ext|..][0] == '.';
    }
  }

  /** Line 29: the audio gate is strict. */
  predicate QuietEnough(level: real) {
    level < -35.0
  }

  /** The per-file outcome main.py prints (lines 31-38); Skipped entries print
      nothing. */
  datatype Report = Skipped | RenameFailed | AudioFailed | Moved(target: String) | Errored(error: Error)

  /** Line 19: an entry is processed when it names a regular file with a video
      extension. */
  predicate Candidate(files: map<String, Content>, sourceDir: String, name: String) {
    Join(sourceDir, name) in files && IsVideoName(name)
  }

  /** The audio result of a renamed candidate lets it through: a number below
      -35.  A missing level (None) would raise TypeError at `None < -35`. */
  predicate AudioPasses(audio: Outcome<Option<real>>) {
    audio.Return? && audio.value.Some? && QuietEnough(audio.value.value)
  }

  /** Lines 16-38 for one listed name: the files afterwards and the report. */
  function Step(files: map<String, Content>, dirs: set<String>, sourceDir: String, destDir: String, name: String,
                renameOf: String -> Outcome<bool>, audioOf: String -> Outcome<Option<real>>): (r: (map<String, Content>, Report))
    ensures r.1.Skipped? <==> !Candidate(files, sourceDir, name)
    ensures r.1 == RenameFailed <==> Candidate(files, sourceDir, name) && renameOf(Join(sourceDir, name)) == Return(false)
    ensures r.1 == AudioFailed <==>
              && Candidate(files, sourceDir, name) && renameOf(Join(sourceDir, name)) == Return(true)
              && audioOf(Join(sourceDir, name)).Return? && audioOf(Join(sourceDir, name)).value.Some?
              && !QuietEnough(audioOf(Join(sourceDir, name)).value.value)
    ensures r.1.Moved? <==>
              && Candidate(files, sourceDir, name) && renameOf(Join(sourceDir, name)) == Return(true)
              && AudioPasses(audioOf(Join(sourceDir, name)))
              && !MoveRaises(files, dirs, Join(sourceDir, name), Join(destDir, name))
    ensures r.1.Moved? ==>
              r.1.target == MoveTarget(dirs, Join(sourceDir, name), Join(destDir, name)) &&
              r.0 == MovedFile(files, Join(sourceDir, name), r.1.target)
    ensures !r.1.Moved? ==> r.0 == files
  {
    var path := Join(sourceDir, name);
    if !Candidate(files, sourceDir, name) then (files, Skipped)
    else match renameOf(path)
      case Raise(e) => (files, Errored(e))
      case Return(renamed) =>
        if !renamed then (files, RenameFailed)
        else match audioOf(path)
          case Raise(e) => (files, Errored(e))
          case Return(None) => (files, Errored(TypeError))
          case Return(Some(level)) =>
            if !QuietEnough(level) then (files, AudioFailed)
            else
              var dst := Join(destDir, name);
              if MoveRaises(files, dirs, path, dst) then (files, Errored(ShutilError))
              else
                var target := MoveTarget(dirs, path, dst);
                (MovedFile(files, path, target), Moved(target))
  }

  /** The loop at lines 15-38 over the listed names, one Step after another. */
  function RunBatch(files: map<String, Content>, dirs: set<String>, sourceDir: String, destDir: String, names: seq<String>,
                    renameOf: String -> Outcome<bool>, audioOf: String -> Outcome<Option<real>>): (r: (map<String, Content>, seq<Report>))
    ensures |r.1| == |names|
    decreases |names|
  {
    if names == [] then (files, [])
    else
      var before := RunBatch(files, dirs, sourceDir, destDir, names[..|names| - 1], renameOf, audioOf);
      var after := Step(before.0, dirs, sourceDir, destDir, names[|names| - 1], renameOf, audioOf);
      (after.0, before.1 + [after.1])
  }

  /** Lines 16-38, the body of the loop, for one listed name. */
  method ProcessFile(fs: FileSystem, sourceDir: String, destDir: String, name: String,
                     renameOf: String -> Outcome<bool>, audioOf: String -> Outcome<Option<real>>)
    returns (report: Report)
    requires fs.Valid()
    modifies fs
    ensures fs.Valid() && fs.dirs == old(fs.dirs)
    ensures (fs.files, report) == Step(old(fs.files), fs.dirs, sourceDir, destDir, name, renameOf, audioOf)
  {
    var path := Join(sourceDir, name);
    if !(fs.IsFile(path) && IsVideoName(name)) {
      return Skipped;
    }
    var renamed := renameOf(path);
    if renamed.Raise? {
      return Errored(renamed.error);
    }
    if !renamed.value {
      return RenameFailed;
    }
    var level := audioOf(path);
    if level.Raise? {
      return Errored(level.error);
    }
    if level.value.None? {
      return Errored(TypeError);
    }
    if !QuietEnough(level.value.value) {
      return AudioFailed;
    }
    var moved := fs.Move(path, Join(destDir, name));
    report := if moved.Raise? then Errored(moved.error) else Moved(moved.value);
  }

  /** process_video_files(source_dir, destination_dir).  os.makedirs (line 9)
      raises for an empty path or an existing file; os.listdir (line 15) is the
      listing parameter, which raises when the source directory is missing.
      Neither exception is caught. */
  method ProcessVideoFiles(fs: FileSystem, sourceDir: String, destDir: String, listing: Outcome<seq<String>>,
                           renameOf: String -> Outcome<bool>, audioOf: String -> Outcome<Option<real>>)
    returns (r: Outcome<seq<Report>>)
    requires fs.Valid()
    modifies fs
    ensures fs.Valid()
    ensures destDir == [] || destDir in old(fs.files) ==>
              r == Raise(OSError) && fs.files == old(fs.files) && fs.dirs == old(fs.dirs)
    ensures destDir != [] && destDir !in old(fs.files) ==> fs.dirs == old(fs.dirs) + {destDir}
    ensures destDir != [] && destDir !in old(fs.files) && listing.Raise? ==>
              r == Raise(listing.error) && fs.files == old(fs.files)
    ensures destDir != [] && destDir !in old(fs.files) && listing.Return? ==>
              var result := RunBatch(old(fs.files), fs.dirs, sourceDir, destDir, listing.value, renameOf, audioOf);
              fs.files == result.0 && r == Return(result.1)
  {
    var made := fs.MakeDirs(destDir);
    if made.Raise? {
      return Raise(made.error);
    }
    if listing.Raise? {
      return Raise(listing.error);
    }
    var names := listing.value;
    ghost var files0 := fs.files;
    var reports: seq<Report> := [];
    var i := 0;
    while i < |names|
      invariant 0 <= i <= |names|
      invariant fs.Valid() && fs.dirs == old(fs.dirs) + {destDir}
      invariant (fs.files, reports) == RunBatch(files0, fs.dirs, sourceDir, destDir, names[..i], renameOf, audioOf)
    {
      var report := ProcessFile(fs, sourceDir, destDir, names[i], renameOf, audioOf);
      reports := reports + [report];
      RunBatchOneMore(files0, fs.dirs, sourceDir, destDir, names, i, renameOf, audioOf);
      i := i + 1;
    }
    assert names[..|names|] == names;
    r := Return(reports);
  }

  /** One more listed name is one more step after the batch so far. */
  lemma RunBatchOneMore(files: map<String, Content>, dirs: set<String>, sourceDir: String, destDir: String,
                        names: seq<String>, i: nat, renameOf: String -> Outcome<bool>,
                        audioOf: String -> Outcome<Option<real>>)
    requires i < |names|
    ensures var before := RunBatch(files, dirs, sourceDir, destDir, names[..i], renameOf, audioOf);
      var step := Step(before.0, dirs, sourceDir, destDir, names[i], renameOf, audioOf);
      RunBatch(files, dirs, sourceDir, destDir, names[..i + 1], renameOf, audioOf) == (step.0, before.1 + [step.1])
  {
    assert names[..i + 1][..i] == names[..i];
  }

  // ---------------------------------------------------------------- properties

  /** What every report says about its file: a non-video name is skipped, and
      a move happened only after a successful rename and a level strictly
      below -35, to the destination joined with the listed name (or into that
      path when it is a directory). */
  lemma {:induction false} ReportsExplainMoves(files: map<String, Content>, dirs: set<String>, sourceDir: String, destDir: String,
                                               names: seq<String>, renameOf: String -> Outcome<bool>,
                                               audioOf: String -> Outcome<Option<real>>, i: nat)
    requires i < |names|
    ensures var reports := RunBatch(files, dirs, sourceDir, destDir, names, renameOf, audioOf).1;
      && (!IsVideoName(names[i]) ==> reports[i] == Skipped)
      && (reports[i].Moved? ==>
            && IsVideoName(names[i])
            && renameOf(Join(sourceDir, names[i])) == Return(true)
            && AudioPasses(audioOf(Join(sourceDir, names[i])))
            && reports[i].target == MoveTarget(dirs, Join(sourceDir, names[i]), Join(destDir, names[i])))
      && (reports[i] == AudioFailed ==> !AudioPasses(audioOf(Join(sourceDir, names[i]))))
    decreases |names|
  {
    var prefix := names[..|names| - 1];
    if i < |names| - 1 {
      ReportsExplainMoves(files, dirs, sourceDir, destDir, prefix, renameOf, audioOf, i);
      assert prefix[i] == names[i];
    }
  }

  /** A path that is neither the source path nor the move target of a listed
      name keeps its file, content included. */
  predicate Untouched(p: String, dirs: set<String>, sourceDir: String, destDir: String, names: seq<String>) {
    forall i | 0 <= i < |names| ::
      p != Join(sourceDir, names[i]) && p != MoveTarget(dirs, Join(sourceDir, names[i]), Join(destDir, names[i]))
  }

  lemma {:induction false} BatchLeavesOthersAlone(files: map<String, Content>, dirs: set<String>, sourceDir: String, destDir: String,
                                                  names: seq<String>, renameOf: String -> Outcome<bool>,
                                                  audioOf: String -> Outcome<Option<real>>, p: String)
    requires Untouched(p, dirs, sourceDir, destDir, names)
    ensures var after := RunBatch(files, dirs, sourceDir, destDir, names, renameOf, audioOf).0;
      (p in after <==> p in files) && (p in files ==> after[p] == files[p])
    decreases |names|
  {
    if names != [] {
      var prefix, last := names[..|names| - 1], |names| - 1;
      UntouchedPrefix(p, dirs, sourceDir, destDir, names);
      BatchLeavesOthersAlone(files, dirs, sourceDir, destDir, prefix, renameOf, audioOf, p);
      var before := RunBatch(files, dirs, sourceDir, destDir, prefix, renameOf, audioOf).0;
      StepLeavesOthersAlone(before, dirs, sourceDir, destDir, names[last], renameOf, audioOf, p);
    }
  }

  /** A path untouched by a batch is untouched by all but its last name, and
      by the last one. */
  lemma UntouchedPrefix(p: String, dirs: set<String>, sourceDir: String, destDir: String, names: seq<String>)
    requires names != [] && Untouched(p, dirs, sourceDir, destDir, names)
    ensures Untouched(p, dirs, sourceDir, destDir, names[..|names| - 1])
    ensures var name := names[|names| - 1];
      p != Join(sourceDir, name) && p != MoveTarget(dirs, Join(sourceDir, name), Join(destDir, name))
  {
    var prefix := names[..|names| - 1];
    forall i | 0 <= i < |prefix|
      ensures p != Join(sourceDir, prefix[i]) && p != MoveTarget(dirs, Join(sourceDir, prefix[i]), Join(destDir, prefix[i]))
    {
      assert prefix[i] == names[i];
    }
  }

  lemma StepLeavesOthersAlone(files: map<String, Content>, dirs: set<String>, sourceDir: String, destDir: String,
                              name: String, renameOf: String -> Outcome<bool>,
                              audioOf: String -> Outcome<Option<real>>, p: String)
    requires p != Join(sourceDir, name) && p != MoveTarget(dirs, Join(sourceDir, name), Join(destDir, name))
    ensures var after := Step(files, dirs, sourceDir, destDir, name, renameOf, audioOf).0;
      (p in after <==> p in files) && (p in files ==> after[p] == files[p])
  {
  }

  /** A file leaves the path it had only through a step that reports a move
      of it: a non-candidate, a failed rename or a loud file stays put. */
  lemma {:induction false} FilesLeaveOnlyByMove(files: map<String, Content>, dirs: set<String>, sourceDir: String, destDir: String,
                                                names: seq<String>, renameOf: String -> Outcome<bool>,
                                                audioOf: String -> Outcome<Option<real>>, p: String)
    requires p in files
    requires p !in RunBatch(files, dirs, sourceDir, destDir, names, renameOf, audioOf).0
    ensures exists i :: 0 <= i < |names| && p == Join(sourceDir, names[i]) &&
              RunBatch(files, dirs, sourceDir, destDir, names, renameOf, audioOf).1[i].Moved?
    decreases |names|
  {
    var prefix := names[..|names| - 1];
    var last := |names| - 1;
    var before := RunBatch(files, dirs, sourceDir, destDir, prefix, renameOf, audioOf);
    var step := Step(before.0, dirs, sourceDir, destDir, names[last], renameOf, audioOf);
    var reports := RunBatch(files, dirs, sourceDir, destDir, names, renameOf, audioOf).1;
    assert reports == before.1 + [step.1];
    if p in before.0 {
      assert p !in step.0;
      assert step.1.Moved?;
      assert p == Join(sourceDir, names[last]);
      assert reports[last] == step.1;
    } else {
      FilesLeaveOnlyByMove(files, dirs, sourceDir, destDir, prefix, renameOf, audioOf, p);
      var i :| 0 <= i < |prefix| && p == Join(sourceDir, prefix[i]) && before.1[i].Moved?;
      assert reports[i] == before.1[i] && prefix[i] == names[i];
    }
  }

  /** The audio gate is strict: a renamed candidate with level l reports an
      audio failure exactly when l is at least -35, so a level of exactly -35
      fails and the file stays where it is. */
  lemma AudioGateIsStrict(files: map<String, Content>, dirs: set<String>, sourceDir: String, destDir: String, name: String,
                          renameOf: String -> Outcome<bool>, audioOf: String -> Outcome<Option<real>>, level: real)
    requires Candidate(files, sourceDir, name) && renameOf(Join(sourceDir, name)) == Return(true)
    requires audioOf(Join(sourceDir, name)) == Return(Some(level))
    ensures Step(files, dirs, sourceDir, destDir, name, renameOf, audioOf).1 == AudioFailed <==> -35.0 <= level
    ensures level == -35.0 ==>
              Step(files, dirs, sourceDir, destDir, name, renameOf, audioOf) == (files, AudioFailed)
  {
  }

  /** A failed rename runs no audio check: the step does not depend on the
      audio results at all. */
  lemma RenameFailureSkipsAudio(files: map<String, Content>, dirs: set<String>, sourceDir: String, destDir: String, name: String,
                                renameOf: String -> Outcome<bool>, audioOf: String -> Outcome<Option<real>>,
                                audioOf': String -> Outcome<Option<real>>)
    requires renameOf(Join(sourceDir, name)) != Return(true)
    ensures Step(files, dirs, sourceDir, destDir, name, renameOf, audioOf)
         == Step(files, dirs, sourceDir, destDir, name, renameOf, audioOf')
  {
    var path := Join(sourceDir, name);
    if Candidate(files, sourceDir, name) {
      match renameOf(path)
      case Raise(e) =>
        assert Step(files, dirs, sourceDir, destDir, name, renameOf, audioOf) == (files, Errored(e));
        assert Step(files, dirs, sourceDir, destDir, name, renameOf, audioOf') == (files, Errored(e));
      case Return(renamed) =>
        assert !renamed;
        assert Step(files, dirs, sourceDir, destDir, name, renameOf, audioOf) == (files, RenameFailed);
        assert Step(files, dirs, sourceDir, destDir, name, renameOf, audioOf') == (files, RenameFailed);
    }
  }

  function UpperChar(c: char): char {
    if 'a' <= c <= 'z' then (c as int - 32) as char else c
  }

  /** str.upper() on ASCII letters. */
  function Upper(s: String): String {
    seq(|s|, i requires 0 <= i < |s| => UpperChar(s[i]))
  }

  /** The extension test ignores case: a name, its lower-case and its
      upper-case forms are all video names or none is. */
  lemma VideoNameIgnoresCase(name: String)
    ensures IsVideoName(Lower(name)) == IsVideoName(name)
    ensures IsVideoName(Upper(name)) == IsVideoName(name)
  {
    assert Lower(Lower(name)) == Lower(name);
    assert Lower(Upper(name)) == Lower(name);
  }
}

=== FILE: files.dfy ===
/** The part of the file system the scripts touch: regular files with their
    contents and the set of directories, both named by path strings, and the
    three operations that change them (os.rename, shutil.move, os.makedirs). */
module Files {
  import opened Outcomes
  import opened Strings
  import opened Paths

  type Content = seq<bv8>

  /** The files after the file at src has been renamed to dst; on POSIX an
      existing file at dst is replaced, and renaming a file to itself does
      nothing. */
  function MovedFile(files: map<String, Content>, src: String, dst: String): (r: map<String, Content>)
    requires src in files
    ensures dst in r && r[dst] == files[src]
    ensures src != dst ==> src !in r
    ensures forall p :: p != src && p != dst ==> (p in r <==> p in files)
    ensures forall p :: p != src && p != dst && p in files ==> r[p] == files[p]
  {
    if src == dst then files else (files - {src})[dst := files[src]]
  }

  /** Where shutil.move(src, dst) puts a regular file: into dst when dst is an
      existing directory, otherwise at dst itself. */
  function MoveTarget(dirs: set<String>, src: String, dst: String): (r: String)
    ensures dst !in dirs ==> r == dst
    ensures dst in dirs ==> Basename(r) == Basename(src)
    ensures dst in dirs && (dst == [] || EndsWith(dst, "/")) ==> r == dst + Basename(src)
    ensures dst in dirs && dst != [] && !EndsWith(dst, "/") ==> r == dst + "/" + Basename(src)
  {
    var name := Basename(src);
    assert name == [] || name[..1][0] == name[0];
    if dst in dirs then Join(dst, name) else dst
  }

  /** shutil.move raises shutil.Error when dst is a directory that already holds
      an entry of src's name; a destination that is not a directory is
      overwritten, never refused. */
  predicate MoveRaises(files: map<String, Content>, dirs: set<String>, src: String, dst: String): (r: bool)
    ensures r ==> dst in dirs
  {
    var target := MoveTarget(dirs, src, dst);
    dst in dirs && (target in files || target in dirs)
  }

  class FileSystem {
    var files: map<String, Content>
    var dirs: set<String>

    /** No path names both a file and a directory. */
    ghost predicate Valid()
      reads this
    {
      files.Keys !! dirs
    }

    constructor (files0: map<String, Content>, dirs0: set<String>)
      requires files0.Keys !! dirs0
      ensures Valid() && files == files0 && dirs == dirs0
    {
      files := files0;
      dirs := dirs0;
    }

    /** os.path.isfile. */
    function IsFile(p: String): bool
      reads this
    {
      p in files
    }

    /** os.rename(src, dst) for a regular file src: IsADirectoryError when dst
        is a directory, otherwise the file now lives at dst. */
    method Rename(src: String, dst: String) returns (r: Outcome<()>)
      requires Valid() && src in files
      modifies this
      ensures Valid() && dirs == old(dirs)
      ensures r == if dst in old(dirs) then Raise(OSError) else Return(())
      ensures files == if r.Raise? then old(files) else MovedFile(old(files), src, dst)
    {
      if dst in dirs {
        return Raise(OSError);
      }
      files := MovedFile(files, src, dst);
      r := Return(());
    }

    /** shutil.move(src, dst) for a regular file src; returns the final path. */
    method Move(src: String, dst: String) returns (r: Outcome<String>)
      requires Valid() && src in files
      modifies this
      ensures Valid() && dirs == old(dirs)
      ensures r == if MoveRaises(old(files), old(dirs), src, dst) then Raise(ShutilError)
                   else Return(MoveTarget(old(dirs), src, dst))
      ensures files == if r.Raise? then old(files) else MovedFile(old(files), src, r.value)
    {
      var target := MoveTarget(dirs, src, dst);
      if dst in dirs && (target in files || target in dirs) {
        return Raise(ShutilError);
      }
      files := MovedFile(files, src, target);
      r := Return(target);
    }

    /** os.makedirs(d, exist_ok=True): an existing directory is no error; an
        empty path or an existing file is. */
    method MakeDirs(d: String) returns (r: Outcome<()>)
      requires Valid()
      modifies this
      ensures Valid() && files == old(files)
      ensures r == if d == [] then Raise(OSError) else if d in old(files) then Raise(OSError) else Return(())
      ensures dirs == if r.Raise? then old(dirs) else old(dirs) + {d}
    {
      if d == [] || d in files {
        return Raise(OSError);
      }
      dirs := dirs + {d};
      r := Return(());
    }
  }
}

=== FILE: outcomes.dfy ===
/** Result shapes shared by the scripts: optional values, the outcome of a Python
    call (a returned value or an exception that propagates), and the reply of a
    child process started with subprocess.run. */
module Outcomes {

  datatype Option<+T> = None | Some(value: T)

  /** The exception classes the scripts tell apart.  OSError stands for all of
      its subclasses (FileNotFoundError, FileExistsError, IsADirectoryError);
      ShutilError is shutil.Error; AttributeError is what calling a function a
      module does not define raises. */
  datatype Error = SubprocessError | OSError | ValueError | TypeError | ShutilError | AttributeError

  /** How a Python call ends: it returns a value, or it raises. */
  datatype Outcome<+T> = Return(value: T) | Raise(error: Error)

  /** What subprocess.run(..., capture_output=True, text=True) gives back: the
      finished process, or the exception raised while starting or waiting for it. */
  datatype Run = Completed(returncode: int, stdout: seq<char>, stderr: seq<char>) | Failed(error: Error)
}

=== FILE: paths.dfy ===
/** The posixpath functions rename.py and main.py rely on: dirname, basename,
    splitext and a two-argument join. */
module Paths {
  import opened Strings

  /** str.rfind(c): the last index holding c, or -1. */
  function RFind(s: String, c: char): (r: int)
    ensures -1 <= r < |s|
    ensures 0 <= r ==> s[r] == c
    ensures forall i :: r < i < |s| ==> s[i] != c
  {
    if s == [] then -1 else if s[|s| - 1] == c then |s| - 1 else RFind(s[..|s| - 1], c)
  }

  lemma RFindUnique(s: String, c: char, k: int)
    requires -1 <= k < |s| && (0 <= k ==> s[k] == c)
    requires forall i :: k < i < |s| ==> s[i] != c
    ensures RFind(s, c) == k
  {
  }

  predicate AllSlashes(s: String) {
    forall i | 0 <= i < |s| :: s[i] == '/'
  }

  /** str.rstrip('/'). */
  function TrimTrailingSlashes(s: String): (r: String)
    ensures |r| <= |s| && r == s[..|r|]
    ensures r == [] || r[|r| - 1] != '/'
    ensures forall i :: |r| <= i < |s| ==> s[i] == '/'
  {
    if s != [] && s[|s| - 1] == '/' then TrimTrailingSlashes(s[..|s| - 1]) else s
  }

  /** The directory part of p, its trailing separator included. */
  function Head(p: String): String {
    p[..RFind(p, '/') + 1]
  }

  /** os.path.basename: the text after the last separator. */
  function Basename(p: String): (r: String)
    ensures '/' !in r
    ensures p == Head(p) + r
  {
    var k := RFind(p, '/') + 1;
    assert forall j :: 0 <= j < |p| - k ==> p[k..][j] == p[k + j];
    p[k..]
  }

  /** os.path.dirname: the text before the last separator, with trailing
      separators removed unless it consists of separators only. */
  function Dirname(p: String): (r: String)
    ensures |r| <= |p| && r == p[..|r|]
    ensures r == [] || r[|r| - 1] != '/' || AllSlashes(r)
    ensures RFind(p, '/') < 0 ==> r == []
    ensures 0 <= RFind(p, '/') ==> 0 < |r| <= RFind(p, '/') + 1
    ensures forall i :: |r| <= i <= RFind(p, '/') ==> p[i] == '/'
    ensures AllSlashes(Head(p)) ==> r == Head(p)
  {
    var head := Head(p);
    if head != [] && !AllSlashes(head) then TrimTrailingSlashes(head) else head
  }

  /** os.path.join(a, b): an absolute b replaces a; otherwise one separator is
      put between them unless a is empty or already ends with one. */
  function Join(a: String, b: String): (r: String)
    ensures StartsWith(b, "/") ==> r == b
    ensures !StartsWith(b, "/") && (a == [] || EndsWith(a, "/")) ==> r == a + b
    ensures !StartsWith(b, "/") && a != [] && !EndsWith(a, "/") ==> r == a + "/" + b
    ensures EndsWith(r, b)
    ensures '/' !in b ==> Basename(r) == b
  {
    assert StartsWith(b, "/") <==> b != [] && b[0] == '/' by {
      assert b == [] || b[..1][0] == b[0];
    }
    if StartsWith(b, "/") then b
    else if a == [] then
      BasenameAfterSeparator(b, -1, b);
      b
    else if EndsWith(a, "/") then
      assert a[|a| - 1] == a[|a| - 1..][0];
      BasenameAfterSeparator(a + b, |a| - 1, b);
      assert (a + b)[|a|..] == b;
      a + b
    else
      BasenameAfterSeparator(a + "/" + b, |a|, b);
      assert (a + "/" + b)[|a| + 1..] == b;
      a + "/" + b
  }

  /** A directory given with a trailing separator gets no second one. */
  lemma JoinAfterTrailingSeparator()
    ensures Join("videos/", "a.mkv") == "videos/a.mkv"
    ensures Join("videos", "a.mkv") == "videos/a.mkv"
  {
    var b := "a.mkv";
    assert !StartsWith(b, "/") by { assert b[..1] == "a"; }
    assert EndsWith("videos/", "/") by { assert "videos/"[6..] == "/"; }
    assert !EndsWith("videos", "/") by { assert "videos"[5..] == "s"; }
    assert "videos/" + b == "videos/a.mkv";
    assert "videos" + "/" + b == "videos/a.mkv";
  }

  /** A name free of separators that follows the last separator (or makes up
      the whole path) is the basename. */
  lemma {:induction false} BasenameAfterSeparator(p: String, k: int, n: String)
    requires -1 <= k < |p| && (0 <= k ==> p[k] == '/') && p[k + 1..] == n
    ensures '/' !in n ==> Basename(p) == n
  {
    if '/' !in n {
      TailFreeOfSeparators(p, k, n);
      BasenameOfTail(p, k);
    }
  }

  lemma {:induction false} TailFreeOfSeparators(p: String, k: int, n: String)
    requires -1 <= k < |p| && p[k + 1..] == n && '/' !in n
    ensures forall i :: k < i < |p| ==> p[i] != '/'
  {
    forall i | k < i < |p| ensures p[i] != '/' {
      assert p[i] == n[i - k - 1];
    }
  }

  /** The text after a separator followed by none is the basename. */
  lemma {:induction false} BasenameOfTail(p: String, k: int)
    requires -1 <= k < |p| && (0 <= k ==> p[k] == '/')
    requires forall i :: k < i < |p| ==> p[i] != '/'
    ensures Basename(p) == p[k + 1..]
  {
    RFindUnique(p, '/', k);
  }

  /** os.path.splitext: (root, ext) where ext runs from the last dot of the
      last path component, unless every character before that dot in the
      component is a dot (".bashrc" has no extension). */
  function SplitExt(p: String): (r: (String, String))
    ensures r.0 + r.1 == p
    ensures r.1 == [] || (r.1[0] == '.' && '.' !in r.1[1..] && '/' !in r.1)
    ensures r.1 != [] ==> exists i :: RFind(p, '/') < i < |r.0| && r.0[i] != '.'
    ensures r.1 != [] ==> |r.0| == RFind(p, '.')
    ensures forall i, j :: RFind(p, '/') < j < i < |p| && p[i] == '.' && p[j] != '.' ==> r.1 != []
  {
    var sepIndex := RFind(p, '/');
    var dotIndex := RFind(p, '.');
    if dotIndex > sepIndex && exists i | sepIndex + 1 <= i < dotIndex :: p[i] != '.' then
      (p[..dotIndex], p[dotIndex..])
    else
      (p, [])
  }

  /** Joining a directory as dirname returns it with a name free of separators
      gives a path whose dirname is that directory and whose basename is that
      name. */
  lemma JoinThenSplit(d: String, n: String)
    requires d == [] || d[|d| - 1] != '/' || AllSlashes(d)
    requires '/' !in n
    ensures Dirname(Join(d, n)) == d
    ensures Basename(Join(d, n)) == n
  {
    assert n == [] || n[..1][0] != '/';
    if d == [] {
      RFindUnique(n, '/', -1);
    } else if EndsWith(d, "/") {
      DirnameOfSlashes(d, n);
    } else {
      DirnameOfSeparated(d, n);
    }
  }

  lemma DirnameOfSlashes(d: String, n: String)
    requires d != [] && AllSlashes(d) && '/' !in n
    ensures Dirname(d + n) == d
  {
    var p := d + n;
    RFindUnique(p, '/', |d| - 1);
    assert Head(p) == d;
  }

  lemma DirnameOfSeparated(d: String, n: String)
    requires d != [] && d[|d| - 1] != '/' && '/' !in n
    ensures Dirname(d + "/" + n) == d
  {
    var p := d + "/" + n;
    RFindUnique(p, '/', |d|);
    var head := Head(p);
    assert head == d + "/";
    assert head[|d| - 1] != '/';
    var r := TrimTrailingSlashes(head);
    assert |r| >= |d|;
    assert r == d;
  }
}

=== FILE: rename.dfy ===
/** scripts/rename.py: rename a movie file to "<proper title><extension>" in
    its own directory, where the proper title is what `python3 title.py <stem>`
    prints.  The title script is a parameter: the run it gives for a stem. */
module Rename {
  import opened Outcomes
  import opened Strings
  import opened Paths
  import opened Files
  import Title

  /** Lines 22 and 25: the extension and the stem of the file name. */
  function Stem(filePath: String): String {
    SplitExt(Basename(filePath)).0
  }

  function Extension(filePath: String): String {
    SplitExt(Basename(filePath)).1
  }

  /** Line 34: the title script's stripped output (line 32) is used only when
      it is non-empty and does not hold the text "not found" (case-sensitive);
      in particular the script's failure message is never used. */
  predicate Accepts(properTitle: String): (r: bool)
    ensures r <==> properTitle != [] && Count(properTitle, "not found") == 0
    ensures r ==> properTitle != Title.NotFoundMessage
  {
    CountPositive(properTitle, "not found");
    MessageHoldsNotFound();
    properTitle != [] && !Contains(properTitle, "not found")
  }

  /** Lines 36-37: the new path: the title followed by the old extension, in
      the old file's directory. */
  function NewPath(filePath: String, properTitle: String): (r: String)
    ensures EndsWith(r, properTitle + Extension(filePath))
    ensures '/' !in properTitle ==>
              Dirname(r) == Dirname(filePath) && Basename(r) == properTitle + Extension(filePath)
  {
    var name := properTitle + Extension(filePath);
    if '/' !in properTitle then
      assert '/' !in Extension(filePath);
      JoinThenSplit(Dirname(filePath), name);
      Join(Dirname(filePath), name)
    else Join(Dirname(filePath), name)
  }

  /** What rename_movie_file decides before it touches the file system. */
  datatype Plan = Missing | LookupFailed(error: Error) | Rejected | RenameTo(newPath: String)

  /** Lines 13-37: a missing file, a failed title run, a rejected title, or the
      path to rename to.  The title script's return code is not consulted. */
  function PlanRename(found: bool, filePath: String, titleRun: Run): (r: Plan)
    ensures r == Missing <==> !found
    ensures r.LookupFailed? <==> found && titleRun.Failed?
    ensures r.LookupFailed? ==> r.error == titleRun.error
    ensures r.RenameTo? <==> found && titleRun.Completed? && Accepts(Strip(titleRun.stdout))
    ensures r.RenameTo? && '/' !in Strip(titleRun.stdout) ==>
              Dirname(r.newPath) == Dirname(filePath) &&
              Basename(r.newPath) == Strip(titleRun.stdout) + Extension(filePath)
  {
    if !found then Missing
    else match titleRun
      case Failed(e) => LookupFailed(e)
      case Completed(_, stdout, _) =>
        if Accepts(Strip(stdout)) then RenameTo(NewPath(filePath, Strip(stdout))) else Rejected
  }

  /** rename_movie_file(file_path).  Only SubprocessError is caught (lines 47-49);
      other exceptions of the title run and of os.rename propagate. */
  method RenameMovieFile(fs: FileSystem, filePath: String, titleScript: String -> Run) returns (r: Outcome<bool>)
    requires fs.Valid() && filePath !in fs.dirs
    modifies fs
    ensures fs.Valid() && fs.dirs == old(fs.dirs)
    ensures var plan := PlanRename(filePath in old(fs.files), filePath, titleScript(Stem(filePath)));
      && (plan.Missing? || plan.Rejected? || plan == LookupFailed(SubprocessError) ==>
            r == Return(false) && fs.files == old(fs.files))
      && (plan.LookupFailed? && plan.error != SubprocessError ==>
            r == Raise(plan.error) && fs.files == old(fs.files))
      && (plan.RenameTo? && plan.newPath in fs.dirs ==>
            r == Raise(OSError) && fs.files == old(fs.files))
      && (plan.RenameTo? && plan.newPath !in fs.dirs ==>
            r == Return(true) && fs.files == MovedFile(old(fs.files), filePath, plan.newPath))
  {
    if !fs.IsFile(filePath) {
      return Return(false);
    }
    var currentName := Stem(filePath);
    var run := titleScript(currentName);
    if run.Failed? {
      if run.error == SubprocessError {
        return Return(false);
      }
      return Raise(run.error);
    }
    var properTitle := Strip(run.stdout);
    if !Accepts(properTitle) {
      return Return(false);
    }
    var newPath := NewPath(filePath, properTitle);
    var renamed := fs.Rename(filePath, newPath);
    if renamed.Raise? {
      return Raise(renamed.error);
    }
    r := Return(true);
  }

  /** The stem and the extension make up the file name again, and the
      extension is empty or one dot followed by dot-free text. */
  lemma StemExtensionRoundTrip(filePath: String)
    ensures Stem(filePath) + Extension(filePath) == Basename(filePath)
    ensures Extension(filePath) == [] || (Extension(filePath)[0] == '.' && '.' !in Extension(filePath)[1..])
  {
  }

  /** The rename of a typical file: the year in the stem does not count as an
      extension, and the new name keeps ".mkv". */
  lemma RenameExample()
    ensures Stem("Movies/heat.1995.mkv") == "heat.1995"
    ensures Extension("Movies/heat.1995.mkv") == ".mkv"
    ensures NewPath("Movies/heat.1995.mkv", "Heat (1995)") == "Movies/Heat (1995).mkv"
  {
    var p, title := "Movies/heat.1995.mkv", "Heat (1995)";
    ExampleBasename();
    ExampleSplitExt();
    ExampleDirname();
    ExampleJoin();
    assert Extension(p) == ".mkv";
    assert title + ".mkv" == "Heat (1995).mkv";
    assert NewPath(p, title) == Join("Movies", "Heat (1995).mkv");
  }

  lemma ExampleJoin()
    ensures Join("Movies", "Heat (1995).mkv") == "Movies/Heat (1995).mkv"
  {
    var a, b := "Movies", "Heat (1995).mkv";
    assert !StartsWith(b, "/") by { assert b[..1] == "H"; }
    assert !EndsWith(a, "/") by { assert a[|a| - 1..] == "s"; }
    assert a != [];
    assert Join(a, b) == a + "/" + b;
  }

  lemma ExampleBasename()
    ensures Basename("Movies/heat.1995.mkv") == "heat.1995.mkv"
  {
    RFindUnique("Movies/heat.1995.mkv", '/', 6);
  }

  lemma ExampleSplitExt()
    ensures SplitExt("heat.1995.mkv") == ("heat.1995", ".mkv")
  {
    var name := "heat.1995.mkv";
    RFindUnique(name, '/', -1);
    RFindUnique(name, '.', 9);
    assert name[0] != '.';
    assert name[9..] == ".mkv" && name[..9] == "heat.1995";
  }

  lemma ExampleDirname()
    ensures Dirname("Movies/heat.1995.mkv") == "Movies"
  {
    var p := "Movies/heat.1995.mkv";
    RFindUnique(p, '/', 6);
    assert Head(p) == "Movies/" && Head(p)[0] == 'M';
  }

  /** The output title.py prints when it finds nothing, with or without the
      error line of a failed request before it, is rejected. */
  lemma RejectsFailureOutput(diagnostic: String)
    requires diagnostic == [] || !IsSpace(diagnostic[0])
    ensures !Accepts(Strip(diagnostic + Title.NotFoundMessage + "\n"))
  {
    var msg := Title.NotFoundMessage;
    var x := diagnostic + msg;
    assert x + "\n" == diagnostic + msg + "\n";
    assert IsSpace("\n"[0]);
    StripAppendSpaces(x, "\n");
    assert x[0] == (if diagnostic == [] then 'M' else diagnostic[0]);
    assert x[|x| - 1] == 'd';
    StripTrimmed(x);
    MessageHoldsNotFound();
    assert x[|diagnostic|..|x|] == msg;
    ContainsInfix(x, |diagnostic|, |x|, "not found");
  }

  lemma MessageHoldsNotFound()
    ensures Contains(Title.NotFoundMessage, "not found")
  {
    var msg := Title.NotFoundMessage;
    var pat := "not found";
    assert msg[6..15] == pat by {
      assert |msg| == 33;
      forall k | 0 <= k < 9 ensures msg[6 + k] == pat[k] { }
    }
    assert OccursAt(msg, pat, 6);
  }

  /** What title.py prints is accepted exactly when get_proper_title found a
      title whose stripped text does not hold "not found"; a missing title, a
      failed request, an error reply and a crashed script are all rejected. */
  lemma AcceptsExactlyFoundTitles(colloquial: String, apiKey: Option<String>, lookup: String -> Title.OmdbReply)
    ensures var res := Title.GetProperTitle(colloquial, apiKey, lookup);
      Accepts(Strip(Title.ScriptOutput(colloquial, apiKey, lookup))) <==>
        res.Return? && res.value.Some? && !Contains(Strip(res.value.value), "not found")
  {
    var res := Title.GetProperTitle(colloquial, apiKey, lookup);
    var out := Title.ScriptOutput(colloquial, apiKey, lookup);
    match res
    case Raise(_) =>
    case Return(None) =>
      var reply := lookup(Title.Query(colloquial));
      if reply.RequestFailed? {
        var diagnostic := Title.RequestErrorPrefix + reply.message + "\n";
        assert diagnostic[0] == 'E';
        RejectsFailureOutput(diagnostic);
      } else {
        assert out == [] + Title.NotFoundMessage + "\n";
        RejectsFailureOutput([]);
      }
    case Return(Some(t)) =>
      assert EndsWith(t, ")");
      assert t[|t| - 1] == ')';
      StripAppendSpaces(t, "\n");
      assert Strip(t) != [];
  }
}

=== FILE: strings.dfy ===
/** The Python str operations the scripts use, over seq<char>.  Character
    classes are the ASCII ones: Python's are Unicode-aware. */
module Strings {

  type String = seq<char>

  /** The ASCII characters for which Python's str.isspace holds. */
  predicate IsSpace(c: char) {
    c == ' ' || ('\t' <= c <= '\r') || ('\U{1C}' <= c <= '\U{1F}')
  }

  /** The regular-expression class \d, restricted to ASCII. */
  predicate IsDigit(c: char) {
    '0' <= c <= '9'
  }

  /** The regular-expression class \w, restricted to ASCII. */
  predicate IsWordChar(c: char) {
    ('a' <= c <= 'z') || ('A' <= c <= 'Z') || IsDigit(c) || c == '_'
  }

  function LowerChar(c: char): char {
    if 'A' <= c <= 'Z' then (c as int + 32) as char else c
  }

  /** str.lower() on ASCII letters. */
  function Lower(s: String): String {
    seq(|s|, i requires 0 <= i < |s| => LowerChar(s[i]))
  }

  // ---------------------------------------------------------------- strip

  /** Number of leading whitespace characters. */
  function LeadingSpaces(s: String): (n: nat)
    ensures n <= |s|
    ensures forall i :: 0 <= i < n ==> IsSpace(s[i])
    ensures n < |s| ==> !IsSpace(s[n])
  {
    if s == [] || !IsSpace(s[0]) then 0 else 1 + LeadingSpaces(s[1..])
  }

  /** Length of s once trailing whitespace is removed. */
  function ContentEnd(s: String): (n: nat)
    ensures n <= |s|
    ensures forall i :: n <= i < |s| ==> IsSpace(s[i])
    ensures 0 < n ==> !IsSpace(s[n - 1])
  {
    if s == [] || !IsSpace(s[|s| - 1]) then |s| else ContentEnd(s[..|s| - 1])
  }

  /** Where str.strip() ends its slice; it starts at LeadingSpaces(s). */
  function StripEnd(s: String): (b: nat)
    ensures LeadingSpaces(s) <= b <= |s|
    ensures forall i :: b <= i < |s| ==> IsSpace(s[i])
  {
    if LeadingSpaces(s) == |s| then |s| else ContentEnd(s)
  }

  /** str.strip(): s without leading and trailing whitespace. */
  function Strip(s: String): (r: String)
    ensures r == s[LeadingSpaces(s)..StripEnd(s)]
    ensures forall i :: 0 <= i < LeadingSpaces(s) ==> IsSpace(s[i])
    ensures r == [] || (!IsSpace(r[0]) && !IsSpace(r[|r| - 1]))
  {
    s[LeadingSpaces(s)..StripEnd(s)]
  }

  /** strip() only removes characters. */
  lemma StripKeepsOut(s: String, c: char)
    requires c !in s
    ensures c !in Strip(s)
  {
    forall i | 0 <= i < |Strip(s)| ensures Strip(s)[i] != c {
      assert Strip(s)[i] == s[LeadingSpaces(s) + i];
    }
  }

  /** Appending whitespace does not change what strip() returns. */
  lemma {:induction false} StripAppendSpaces(s: String, w: String)
    requires forall i :: 0 <= i < |w| ==> IsSpace(w[i])
    ensures Strip(s + w) == Strip(s)
  {
    var t := s + w;
    var a, b := LeadingSpaces(s), StripEnd(s);
    if a == |s| {
      // s is all whitespace, so s + w is too
      assert forall i :: 0 <= i < |t| ==> IsSpace(t[i]);
      LeadingSpacesAll(t);
    } else {
      assert !IsSpace(t[a]);
      assert LeadingSpaces(t) == a;
      ContentEndUnique(t, b);
    }
  }

  lemma {:induction false} LeadingSpacesAll(s: String)
    requires forall i :: 0 <= i < |s| ==> IsSpace(s[i])
    ensures LeadingSpaces(s) == |s|
  {
  }

  lemma ContentEndUnique(s: String, b: nat)
    requires 0 < b <= |s| && !IsSpace(s[b - 1])
    requires forall i :: b <= i < |s| ==> IsSpace(s[i])
    ensures ContentEnd(s) == b
  {
  }

  /** A string that neither starts nor ends with whitespace is its own strip(). */
  lemma StripTrimmed(s: String)
    requires s != [] && !IsSpace(s[0]) && !IsSpace(s[|s| - 1])
    ensures Strip(s) == s
  {
    ContentEndUnique(s, |s|);
  }

  // ---------------------------------------------------------------- substrings

  predicate StartsWith(s: String, prefix: String) {
    |prefix| <= |s| && s[..|prefix|] == prefix
  }

  predicate EndsWith(s: String, suffix: String) {
    |suffix| <= |s| && s[|s| - |suffix|..] == suffix
  }

  predicate OccursAt(s: String, pat: String, i: nat) {
    i + |pat| <= |s| && s[i..i + |pat|] == pat
  }

  /** The test `pat in s`. */
  predicate Contains(s: String, pat: String) {
    exists i | 0 <= i <= |s| - |pat| :: OccursAt(s, pat, i)
  }

  /** A substring of a piece is a substring of the whole. */
  lemma ContainsInfix(s: String, a: nat, b: nat, pat: String)
    requires a <= b <= |s| && Contains(s[a..b], pat)
    ensures Contains(s, pat)
  {
    var i :| 0 <= i <= b - a - |pat| && OccursAt(s[a..b], pat, i);
    assert s[a..b][i..i + |pat|] == pat;
    forall k | 0 <= k < |pat| ensures s[a + i + k] == pat[k] {
      assert s[a..b][i + k] == s[a + i + k];
    }
    assert s[a + i..a + i + |pat|] == pat;
    assert OccursAt(s, pat, a + i);
  }

  /** str.count(pat) for a non-empty pat: occurrences found left to right,
      each search resuming after the previous occurrence. */
  function Count(s: String, pat: String): (n: nat)
    requires pat != []
    ensures n * |pat| <= |s|
    decreases |s|
  {
    if |s| < |pat| then 0
    else if s[..|pat|] == pat then
      var rest := Count(s[|pat|..], pat);
      assert (1 + rest) * |pat| == |pat| + rest * |pat|;
      1 + rest
    else Count(s[1..], pat)
  }

  /** Some occurrence is counted exactly when the pattern occurs at all. */
  lemma {:induction false} CountPositive(s: String, pat: String)
    requires pat != []
    ensures Count(s, pat) > 0 <==> Contains(s, pat)
    decreases |s|
  {
    if |s| < |pat| {
    } else if s[..|pat|] == pat {
      assert OccursAt(s, pat, 0);
    } else {
      CountPositive(s[1..], pat);
      if Contains(s, pat) {
        var i :| 0 <= i <= |s| - |pat| && OccursAt(s, pat, i);
        assert i != 0;
        assert s[1..][i - 1..i - 1 + |pat|] == s[i..i + |pat|];
        assert OccursAt(s[1..], pat, i - 1);
      }
      if Contains(s[1..], pat) {
        assert s[1..|s|] == s[1..];
        ContainsInfix(s, 1, |s|, pat);
      }
    }
  }

  /** The number of positions at which pat occurs, overlapping ones included. */
  function Occurrences(s: String, pat: String): nat
    requires pat != []
    decreases |s|
  {
    if |s| < |pat| then 0
    else (if OccursAt(s, pat, 0) then 1 else 0) + Occurrences(s[1..], pat)
  }

  /** No proper suffix of pat is also a prefix of it, so two occurrences of pat
      can never overlap. */
  predicate SelfDisjoint(pat: String) {
    forall d | 0 < d < |pat| :: pat[d..] != pat[..|pat| - d]
  }

  /** A pattern whose first character appears nowhere else cannot overlap
      itself. */
  lemma FirstCharOnce(pat: String)
    requires pat != [] && forall d | 0 < d < |pat| :: pat[d] != pat[0]
    ensures SelfDisjoint(pat)
  {
    forall d | 0 < d < |pat| ensures pat[d..] != pat[..|pat| - d] {
      assert pat[d..][0] == pat[d] && pat[..|pat| - d][0] == pat[0];
    }
  }

  /** For a pattern that cannot overlap itself, str.count is the number of
      positions at which it occurs. */
  lemma {:induction false} CountIsOccurrences(s: String, pat: String)
    requires pat != [] && SelfDisjoint(pat)
    ensures Count(s, pat) == Occurrences(s, pat)
    decreases |s|
  {
    if |s| < |pat| {
    } else if s[..|pat|] == pat {
      assert OccursAt(s, pat, 0);
      CountIsOccurrences(s[|pat|..], pat);
      NoOccurrenceInside(s, pat, 1);
    } else {
      assert !OccursAt(s, pat, 0);
      CountIsOccurrences(s[1..], pat);
    }
  }

  /** After an occurrence at 0, no occurrence starts before its end. */
  lemma {:induction false} NoOccurrenceInside(s: String, pat: String, d: nat)
    requires pat != [] && SelfDisjoint(pat)
    requires |pat| <= |s| && s[..|pat|] == pat && 1 <= d <= |pat|
    ensures Occurrences(s[d..], pat) == Occurrences(s[|pat|..], pat)
    decreases |pat| - d
  {
    if d < |pat| && |pat| <= |s| - d {
      var t := s[d..];
      assert t[..|pat| - d] == pat[d..];
      assert pat[d..] != pat[..|pat| - d];
      assert t[..|pat|] != pat by {
        assert t[..|pat|][..|pat| - d] == t[..|pat| - d];
      }
      assert t[1..] == s[d + 1..];
      NoOccurrenceInside(s, pat, d + 1);
    }
  }

  /** Text appended after s never lowers the count found in s. */
  lemma {:induction false} CountAppend(s: String, t: String, pat: String)
    requires pat != []
    ensures Count(s + t, pat) >= Count(s, pat)
    decreases |s|
  {
    if |s| < |pat| {
    } else {
      assert (s + t)[..|pat|] == s[..|pat|];
      if s[..|pat|] == pat {
        assert (s + t)[|pat|..] == s[|pat|..] + t;
        CountAppend(s[|pat|..], t, pat);
      } else {
        assert (s + t)[1..] == s[1..] + t;
        CountAppend(s[1..], t, pat);
      }
    }
  }

  /** str.replace(pat, rep) for a non-empty pat: occurrences are replaced left to
      right, each search resuming after the previous occurrence. */
  function Replace(s: String, pat: String, rep: String): (r: String)
    requires pat != []
    ensures !Contains(s, pat) ==> r == s
    ensures |rep| <= |pat| ==> |r| <= |s|
    ensures |rep| == |pat| ==> |r| == |s|
    decreases |s|
  {
    if |s| < |pat| then s
    else if s[..|pat|] == pat then
      assert OccursAt(s, pat, 0);
      rep + Replace(s[|pat|..], pat, rep)
    else
      assert Contains(s[1..], pat) ==> Contains(s, pat) by {
        if Contains(s[1..], pat) {
          assert s[1..|s|] == s[1..];
          ContainsInfix(s, 1, |s|, pat);
        }
      }
      [s[0]] + Replace(s[1..], pat, rep)
  }

  /** Deleting a pattern that starts with a space leaves a space-free string
      followed by that pattern with just the string. */
  lemma {:induction false} ReplaceDropsSuffix(s: String, pat: String)
    requires pat != [] && pat[0] == ' '
    requires ' ' !in s
    ensures Replace(s + pat, pat, []) == s
    decreases |s|
  {
    if s == [] {
      assert (s + pat)[|pat|..] == [];
    } else {
      assert (s + pat)[..|pat|] != pat by { assert (s + pat)[0] == s[0] != ' '; }
      assert (s + pat)[1..] == s[1..] + pat;
      ReplaceDropsSuffix(s[1..], pat);
    }
  }

  /** Replacing one character distributes over concatenation. */
  lemma {:induction false} ReplaceCharAppend(a: String, b: String, c: char, rep: String)
    ensures Replace(a + b, [c], rep) == Replace(a, [c], rep) + Replace(b, [c], rep)
    decreases |a|
  {
    if a == [] {
      assert a + b == b;
    } else {
      assert (a + b)[..1] == a[..1];
      assert (a + b)[1..] == a[1..] + b;
      ReplaceCharAppend(a[1..], b, c, rep);
    }
  }

  /** The first occurrence of c in s. */
  function FirstIndex(s: String, c: char): (k: nat)
    requires c in s
    ensures k < |s| && s[k] == c && c !in s[..k]
  {
    if s[0] == c then 0
    else
      var k := FirstIndex(s[1..], c);
      assert s[..k + 1] == [s[0]] + s[1..][..k];
      k + 1
  }

  // ---------------------------------------------------------------- split

  /** The inverse of str.split: the parts glued back with sep between them. */
  function JoinWith(parts: seq<String>, sep: char): String
    requires |parts| >= 1
  {
    if |parts| == 1 then parts[0] else parts[0] + [sep] + JoinWith(parts[1..], sep)
  }

  /** str.split(sep) for a one-character separator. */
  function Split(s: String, sep: char): (parts: seq<String>)
    ensures |parts| >= 1
    decreases |s|
  {
    if s == [] then [[]]
    else
      var rest := Split(s[1..], sep);
      if s[0] == sep then [[]] + rest else [[s[0]] + rest[0]] + rest[1..]
  }

  /** Split and JoinWith are inverse: no part holds the separator, there is more
      than one part exactly when the separator occurs, and joining the parts
      gives back the text. */
  lemma SplitParts(s: String, sep: char)
    ensures forall k :: 0 <= k < |Split(s, sep)| ==> sep !in Split(s, sep)[k]
    ensures |Split(s, sep)| == 1 <==> sep !in s
    ensures JoinWith(Split(s, sep), sep) == s
  {
    SplitPartsFree(s, sep);
    SplitSingle(s, sep);
    SplitJoin(s, sep);
  }

  lemma {:induction false} SplitPartsFree(s: String, sep: char)
    ensures forall k :: 0 <= k < |Split(s, sep)| ==> sep !in Split(s, sep)[k]
    decreases |s|
  {
    if s != [] {
      SplitPartsFree(s[1..], sep);
      var rest := Split(s[1..], sep);
      var parts := Split(s, sep);
      if s[0] == sep {
        assert parts == [[]] + rest;
      } else {
        assert parts == [[s[0]] + rest[0]] + rest[1..];
        assert forall k :: 1 <= k < |parts| ==> parts[k] == rest[k];
      }
    }
  }

  lemma {:induction false} SplitSingle(s: String, sep: char)
    ensures |Split(s, sep)| == 1 <==> sep !in s
    decreases |s|
  {
    if s != [] {
      SplitSingle(s[1..], sep);
      assert s == [s[0]] + s[1..];
    }
  }

  lemma {:induction false} SplitJoin(s: String, sep: char)
    ensures JoinWith(Split(s, sep), sep) == s
    decreases |s|
  {
    if s != [] {
      SplitJoin(s[1..], sep);
      var rest := Split(s[1..], sep);
      var parts := Split(s, sep);
      assert s == [s[0]] + s[1..];
      if s[0] == sep {
        assert parts[1..] == rest;
      } else {
        assert parts[0] == [s[0]] + rest[0];
        if |rest| > 1 {
          assert parts[1..] == rest[1..];
          assert JoinWith(rest, sep) == rest[0] + [sep] + JoinWith(rest[1..], sep);
        }
      }
    }
  }

  /** Splitting text that holds one more separator splits its two sides. */
  lemma {:induction false} SplitAppend(a: String, b: String, sep: char)
    ensures Split(a + [sep] + b, sep) == Split(a, sep) + Split(b, sep)
    decreases |a|
  {
    if a == [] {
      assert a + [sep] + b == [sep] + b;
      SplitConsSeparator(sep, b);
    } else {
      SplitAppend(a[1..], b, sep);
      SplitAppendCons(a[0], a[1..], b, sep);
      FirstAndRest(a, sep, b);
    }
  }

  /** The inductive step of SplitAppend: one more character in front. */
  lemma SplitAppendCons(c: char, rest: String, b: String, sep: char)
    requires Split(rest + [sep] + b, sep) == Split(rest, sep) + Split(b, sep)
    ensures Split([c] + (rest + [sep] + b), sep) == Split([c] + rest, sep) + Split(b, sep)
  {
    if c == sep {
      SplitAppendLeadingSeparator(rest + [sep] + b, rest, b, sep);
    } else {
      SplitAppendLeadingOther(c, rest + [sep] + b, rest, b, sep);
    }
  }

  /** A leading separator in front of whole and of its first piece rest. */
  lemma SplitAppendLeadingSeparator(whole: String, rest: String, b: String, sep: char)
    requires Split(whole, sep) == Split(rest, sep) + Split(b, sep)
    ensures Split([sep] + whole, sep) == Split([sep] + rest, sep) + Split(b, sep)
  {
    SplitConsSeparator(sep, whole);
    SplitConsSeparator(sep, rest);
    var tail, right := Split(rest, sep), Split(b, sep);
    assert [[]] + (tail + right) == ([[]] + tail) + right;
  }

  /** Any other leading character in front of whole and of its first piece rest. */
  lemma SplitAppendLeadingOther(c: char, whole: String, rest: String, b: String, sep: char)
    requires c != sep
    requires Split(whole, sep) == Split(rest, sep) + Split(b, sep)
    ensures Split([c] + whole, sep) == Split([c] + rest, sep) + Split(b, sep)
  {
    SplitConsOther(c, whole, sep);
    SplitConsOther(c, rest, sep);
    GlueFirstPart([c], Split(rest, sep), Split(b, sep));
  }

  /** A leading separator ends an empty first part. */
  lemma SplitConsSeparator(sep: char, t: String)
    ensures Split([sep] + t, sep) == [[]] + Split(t, sep)
  {
    assert ([sep] + t)[1..] == t;
  }

  /** Any other leading character joins the first part. */
  lemma SplitConsOther(c: char, t: String, sep: char)
    requires c != sep
    ensures Split([c] + t, sep) == [[c] + Split(t, sep)[0]] + Split(t, sep)[1..]
  {
    assert ([c] + t)[1..] == t;
  }

  /** Gluing text onto the first of several parts is not disturbed by parts
      appended after them. */
  lemma GlueFirstPart(w: String, tail: seq<String>, right: seq<String>)
    requires |tail| >= 1
    ensures [w + (tail + right)[0]] + (tail + right)[1..] == ([w + tail[0]] + tail[1..]) + right
  {
    assert (tail + right)[0] == tail[0];
    assert (tail + right)[1..] == tail[1..] + right;
  }

  lemma FirstAndRest(a: String, sep: char, b: String)
    requires a != []
    ensures a == [a[0]] + a[1..]
    ensures a + [sep] + b == [a[0]] + (a[1..] + [sep] + b)
  {
  }


  /** The first part of a split is the text before the first separator. */
  lemma {:induction false} SplitFirst(s: String, sep: char, k: nat)
    requires k < |s| && s[k] == sep && sep !in s[..k]
    ensures Split(s, sep)[0] == s[..k]
    decreases k
  {
    if k > 0 {
      assert s[1..][..k - 1] == s[1..k];
      assert sep !in s[1..][..k - 1] by { assert s[1..k] == s[..k][1..]; }
      SplitFirst(s[1..], sep, k - 1);
      assert s[..k] == [s[0]] + s[1..k];
    }
  }

  /** A string with no separator splits into itself. */
  lemma SplitNone(s: String, sep: char)
    requires sep !in s
    ensures Split(s, sep) == [s]
  {
    SplitParts(s, sep);
    var parts := Split(s, sep);
    assert |parts| == 1 && JoinWith(parts, sep) == parts[0];
  }
}

=== FILE: title.dfy ===
/** scripts/title.py: the colloquial title taken from a file name becomes a
    lookup query (punctuation cleaned, cut before the last release year), and
    the metadata service's reply becomes "Title (Year)".  The HTTP request, the
    API-key lookup and JSON decoding are outside the model: the key and the
    reply are parameters. */
module Title {
  import opened Outcomes
  import opened Strings

  // ---------------------------------------------------------------- cleaning

  /** Line 24: dots become spaces, parentheses are deleted.  The three chained
      replacements act on each character on its own, so no '.', '(' or ')'
      survives. */
  function CleanTitle(s: String): (r: String)
    ensures '.' !in r && '(' !in r && ')' !in r
  {
    ReplaceChainCharwise(s);
    CharwiseHasNoPunctuation(s);
    Replace(Replace(Replace(s, ".", " "), "(", ""), ")", "")
  }

  /** What cleaning does to one character. */
  function CleanChar(c: char): String {
    if c == '.' then " " else if c == '(' || c == ')' then "" else [c]
  }

  /** Cleaning defined character by character. */
  function CleanCharwise(s: String): String {
    if s == [] then [] else CleanChar(s[0]) + CleanCharwise(s[1..])
  }

  lemma {:induction false} ReplaceChainCharwise(s: String)
    ensures Replace(Replace(Replace(s, ".", " "), "(", ""), ")", "") == CleanCharwise(s)
    decreases |s|
  {
    if s != [] {
      var x, t := [s[0]], s[1..];
      assert s == x + t;
      ReplaceCharAppend(x, t, '.', " ");
      var r1x, r1t := Replace(x, ".", " "), Replace(t, ".", " ");
      ReplaceCharAppend(r1x, r1t, '(', "");
      var r2x, r2t := Replace(r1x, "(", ""), Replace(r1t, "(", "");
      ReplaceCharAppend(r2x, r2t, ')', "");
      assert Replace(Replace(Replace(x, ".", " "), "(", ""), ")", "") == CleanChar(s[0]);
      ReplaceChainCharwise(t);
    }
  }

  /** The chained replacements equal the per-character definition. */
  lemma CleanTitleCharwise(s: String)
    ensures CleanTitle(s) == CleanCharwise(s)
  {
    ReplaceChainCharwise(s);
  }

  lemma {:induction false} CharwiseHasNoPunctuation(s: String)
    ensures '.' !in CleanCharwise(s) && '(' !in CleanCharwise(s) && ')' !in CleanCharwise(s)
    decreases |s|
  {
    if s != [] {
      CharwiseHasNoPunctuation(s[1..]);
    }
  }

  lemma {:induction false} CharwiseKeepsClean(s: String)
    requires '.' !in s && '(' !in s && ')' !in s
    ensures CleanCharwise(s) == s
    decreases |s|
  {
    if s != [] {
      CharwiseKeepsClean(s[1..]);
      assert s == [s[0]] + s[1..];
    }
  }

  /** Cleaning twice is cleaning once. */
  lemma CleanTitleIdempotent(s: String)
    ensures CleanTitle(CleanTitle(s)) == CleanTitle(s)
  {
    ReplaceChainCharwise(CleanTitle(s));
    CharwiseKeepsClean(CleanTitle(s));
  }

  // ---------------------------------------------------------------- years

  /** The value of the digit c. */
  function DigitValue(c: char): int {
    c as int - '0' as int
  }

  /** The number written by the four characters from i. */
  function FourDigitNumber(s: String, i: nat): int
    requires i + 4 <= |s|
  {
    1000 * DigitValue(s[i]) + 100 * DigitValue(s[i + 1]) + 10 * DigitValue(s[i + 2]) + DigitValue(s[i + 3])
  }

  /** Line 27: the pattern \b(19|20)\d{2}\b matches at i. */
  predicate YearAt(s: String, i: nat) {
    && i + 4 <= |s|
    && ((s[i] == '1' && s[i + 1] == '9') || (s[i] == '2' && s[i + 1] == '0'))
    && IsDigit(s[i + 2]) && IsDigit(s[i + 3])
    && (i == 0 || !IsWordChar(s[i - 1]))
    && (i + 4 == |s| || !IsWordChar(s[i + 4]))
  }

  /** A year token is a four-digit number from 1900 to 2099 standing as a
      word of its own, and every such number is a year token. */
  lemma YearAtIsYearNumber(s: String, i: nat)
    ensures YearAt(s, i) <==>
      && i + 4 <= |s|
      && IsDigit(s[i]) && IsDigit(s[i + 1]) && IsDigit(s[i + 2]) && IsDigit(s[i + 3])
      && 1900 <= FourDigitNumber(s, i) <= 2099
      && (i == 0 || !IsWordChar(s[i - 1]))
      && (i + 4 == |s| || !IsWordChar(s[i + 4]))
  {
  }

  /** re.finditer from position k: each search resumes after the previous
      match.  Every year token from k on is found, in order. */
  function YearMatchesFrom(s: String, k: nat): (r: seq<nat>)
    requires k <= |s|
    ensures forall j :: 0 <= j < |r| ==> k <= r[j] && YearAt(s, r[j])
    ensures forall i :: k <= i && YearAt(s, i) ==> i in r
    ensures forall j, j' :: 0 <= j < j' < |r| ==> r[j] + 4 <= r[j']
    decreases |s| - k
  {
    if k == |s| then []
    else if YearAt(s, k) then
      // no token starts inside this one: its inner characters are digits
      assert forall i :: k < i < k + 4 ==> !YearAt(s, i) by {
        forall i | k < i < k + 4 ensures !YearAt(s, i) { assert IsWordChar(s[i - 1]); }
      }
      [k] + YearMatchesFrom(s, k + 4)
    else YearMatchesFrom(s, k + 1)
  }

  /** Line 27: list(re.finditer(...)), as start positions. */
  function YearMatches(s: String): seq<nat> {
    YearMatchesFrom(s, 0)
  }

  /** Lines 24-39: the query sent to the lookup.  When a year token occurs the
      text before the last one is kept, stripped; the loop at lines 36-39 only
      reassigns clean_title to itself and so has no counterpart here. */
  function Query(colloquial: String): (r: String)
    ensures '.' !in r && '(' !in r && ')' !in r
  {
    CutAtLastYear(CleanTitle(colloquial))
  }

  /** Lines 27-33 on the cleaned title: the stripped text before the last year
      token, or the whole title when there is none. */
  function CutAtLastYear(clean: String): (r: String)
    ensures forall c :: c in r ==> c in clean
  {
    var matches := YearMatches(clean);
    if matches == [] then clean
    else
      var k := matches[|matches| - 1];
      assert forall c :: c in Strip(clean[..k]) ==> c in clean by {
        forall c | c in Strip(clean[..k]) ensures c in clean {
          var i :| 0 <= i < |Strip(clean[..k])| && Strip(clean[..k])[i] == c;
          assert clean[LeadingSpaces(clean[..k]) + i] == c;
        }
      }
      Strip(clean[..k])
  }

  /** Without a year token the query is the cleaned title, not stripped. */
  lemma QueryWithoutYear(colloquial: String)
    requires forall i :: !YearAt(CleanTitle(colloquial), i)
    ensures Query(colloquial) == CleanTitle(colloquial)
  {
  }

  /** With year tokens, the query is the stripped text before the last one:
      that year and all that follows it are dropped, while an earlier year
      token is still a year token of the query, at the place strip() moved it
      to. */
  lemma {:induction false} QueryCutsAtLastYear(colloquial: String, last: nat, earlier: nat)
    requires YearAt(CleanTitle(colloquial), last)
    requires forall i :: last < i ==> !YearAt(CleanTitle(colloquial), i)
    ensures Query(colloquial) == Strip(CleanTitle(colloquial)[..last])
    ensures earlier < last && YearAt(CleanTitle(colloquial), earlier) ==>
              LeadingSpaces(CleanTitle(colloquial)[..last]) <= earlier &&
              YearAt(Query(colloquial), earlier - LeadingSpaces(CleanTitle(colloquial)[..last]))
  {
    var clean := CleanTitle(colloquial);
    CutsAtLastYear(clean, last);
    if earlier < last && YearAt(clean, earlier) {
      EarlierYearKept(clean, last, earlier);
    }
  }

  lemma {:induction false} CutsAtLastYear(clean: String, last: nat)
    requires YearAt(clean, last)
    requires forall i :: last < i ==> !YearAt(clean, i)
    ensures CutAtLastYear(clean) == Strip(clean[..last])
  {
    LastMatch(clean, last);
  }

  /** The last match finditer reports is the last year token. */
  lemma {:induction false} LastMatch(clean: String, last: nat)
    requires YearAt(clean, last)
    requires forall i :: last < i ==> !YearAt(clean, i)
    ensures YearMatches(clean) != [] && YearMatches(clean)[|YearMatches(clean)| - 1] == last
  {
    var matches := YearMatches(clean);
    assert last in matches;
    var n := |matches|;
    assert YearAt(clean, matches[n - 1]);
    assert forall j :: 0 <= j < n - 1 ==> matches[j] < matches[n - 1];
  }

  lemma EarlierYearKept(clean: String, last: nat, j: nat)
    requires YearAt(clean, last) && YearAt(clean, j) && j < last
    ensures LeadingSpaces(clean[..last]) <= j
    ensures YearAt(Strip(clean[..last]), j - LeadingSpaces(clean[..last]))
  {
    var t := clean[..last];
    YearTokensApart(clean, j, last);
    assert t[j] == clean[j] && t[j + 3] == clean[j + 3];
    assert !IsSpace(t[j]) && !IsSpace(t[j + 3]);
    var a, b := LeadingSpaces(t), StripEnd(t);
    assert a <= j && j + 3 < b;
    assert t[a..b] == clean[a..b];
    YearInSlice(clean, a, b, j);
  }

  /** Two year tokens do not overlap: the character just before a year token
      is not a word character, and every character of a year token is one. */
  lemma YearTokensApart(clean: String, j: nat, last: nat)
    requires YearAt(clean, last) && YearAt(clean, j) && j < last
    ensures j + 4 <= last
  {
    assert forall i :: j <= i < j + 4 ==> IsWordChar(clean[i]);
  }

  /** A year token lying inside a slice is a year token of the slice. */
  lemma YearInSlice(s: String, a: nat, b: nat, j: nat)
    requires YearAt(s, j) && a <= j && j + 4 <= b <= |s|
    ensures YearAt(s[a..b], j - a)
  {
    var q, i := s[a..b], j - a;
    assert q[i] == s[j] && q[i + 1] == s[j + 1] && q[i + 2] == s[j + 2] && q[i + 3] == s[j + 3];
    assert i == 0 || q[i - 1] == s[j - 1];
    assert i + 4 == |q| || q[i + 4] == s[j + 4];
  }

  /** The two examples: a five-digit number and a year glued to a letter are
      not year tokens. */
  lemma YearTokenBoundaries()
    ensures YearMatches("Movie 2019") == [6]
    ensures YearMatches("20192") == []
    ensures YearMatches("A2019") == []
  {
    OnlyYearToken("Movie 2019", 6);
    assert forall i :: !YearAt("20192", i);
    NoYearToken("20192");
    assert forall i :: !YearAt("A2019", i);
    NoYearToken("A2019");
  }

  /** finditer reports nothing exactly when there is no year token. */
  lemma NoYearToken(s: String)
    ensures (forall i :: !YearAt(s, i)) <==> YearMatches(s) == []
  {
    var r := YearMatches(s);
    if r != [] {
      assert YearAt(s, r[0]);
    }
  }

  /** finditer reports k alone exactly when k is the only year token. */
  lemma OnlyYearToken(s: String, k: nat)
    requires YearAt(s, k)
    ensures (forall i :: i != k ==> !YearAt(s, i)) <==> YearMatches(s) == [k]
  {
    var r := YearMatches(s);
    assert k in r;
    if |r| > 1 {
      assert r[0] + 4 <= r[1];
    }
  }

  // ---------------------------------------------------------------- reply

  /** The decoded OMDb reply: the fields 'Response', 'Title' and 'Year' when the
      request succeeded (None for an absent field); RequestFailed, with the
      exception's text, when requests raised RequestException (network error,
      HTTP error status, undecodable body). */
  datatype OmdbReply =
    | RequestFailed(message: String)
    | Reply(response: Option<String>, title: Option<String>, year: Option<String>)

  /** Lines 52-53: a title holding '(' is cut at its first '(' and stripped;
      any other title is left as it is. */
  function ShortTitle(title: String): (r: String)
    ensures '(' !in r
    ensures '(' !in title ==> r == title
    ensures '(' in title ==> r == Strip(title[..FirstIndex(title, '(')])
  {
    if '(' in title then
      var k := FirstIndex(title, '(');
      SplitFirst(title, '(', k);
      StripKeepsOut(title[..k], '(');
      Strip(Split(title, '(')[0])
    else title
  }

  /** f"{year}" for the 'Year' field; an absent field prints as None. */
  function YearText(year: Option<String>): String {
    if year.Some? then year.value else "None"
  }

  /** Lines 49-57: the formatted title.  Response 'True' gives
      "Title (Year)" whose first '(' is the one after the short title; any
      other reply gives None; a 'True' reply without a title raises the
      TypeError of `'(' in None`. */
  function FormatReply(reply: OmdbReply): (r: Outcome<Option<String>>)
    ensures r == Return(None) <==> reply.RequestFailed? || reply.response != Some("True")
    ensures r.Raise? <==> reply.Reply? && reply.response == Some("True") && reply.title.None?
    ensures r.Raise? ==> r.error == TypeError
    ensures r.Return? && r.value.Some? ==>
              var s := r.value.value;
              && '(' in s && EndsWith(s, ")")
              && s[..FirstIndex(s, '(')] == ShortTitle(reply.title.value) + " "
              && s[FirstIndex(s, '(') + 1..|s| - 1] == YearText(reply.year)
  {
    match reply
    case RequestFailed(_) => Return(None)
    case Reply(response, title, year) =>
      if response != Some("True") then Return(None)
      else if title.None? then Raise(TypeError)
      else
        FormattedShape(ShortTitle(title.value), YearText(year));
        Return(Some(ShortTitle(title.value) + " (" + YearText(year) + ")"))
  }

  /** "<t> (<y>)" for a t without '(': its first '(' follows t and a space,
      and the year text lies between it and the closing ')'. */
  lemma FormattedShape(t: String, y: String)
    requires '(' !in t
    ensures var s := t + " (" + y + ")";
      && '(' in s && EndsWith(s, ")")
      && FirstIndex(s, '(') == |t| + 1
      && s[..|t| + 1] == t + " "
      && s[|t| + 2..|s| - 1] == y
  {
    var s := t + " (" + y + ")";
    assert s[|t| + 1] == '(' && s[..|t| + 1] == t + " ";
    var k := FirstIndex(s, '(');
    assert forall i :: 0 <= i < |t| ==> s[i] == t[i];
    assert forall i :: 0 <= i < k ==> s[..k][i] == s[i];
    assert k == |t| + 1;
  }

  /** get_proper_title: a missing or empty API key raises ValueError (line 21)
      before any request; otherwise the reply to the query is formatted.  The
      result is None exactly when the request failed or the reply's Response
      is not "True"; a "True" reply without a title raises TypeError; any
      other reply gives "<short title> (<year>)". */
  function GetProperTitle(colloquial: String, apiKey: Option<String>, lookup: String -> OmdbReply): (r: Outcome<Option<String>>)
    ensures apiKey == None || apiKey == Some([]) ==> r == Raise(ValueError)
    ensures apiKey.Some? && apiKey.value != [] ==>
              var reply := lookup(Query(colloquial));
              && (r == Return(None) <==> reply.RequestFailed? || reply.response != Some("True"))
              && (reply.Reply? && reply.response == Some("True") && reply.title.None? ==> r == Raise(TypeError))
              && (reply.Reply? && reply.response == Some("True") && reply.title.Some? ==>
                    r == Return(Some(ShortTitle(reply.title.value) + " (" + YearText(reply.year) + ")")))
  {
    if apiKey.None? || apiKey.value == [] then Raise(ValueError)
    else FormatReply(lookup(Query(colloquial)))
  }

  /** The message the script prints when no title is found (line 75). */
  const NotFoundMessage: String := "Movie not found or error occurred"

  /** The start of the line printed when the request fails (line 60). */
  const RequestErrorPrefix: String := "Error fetching data from OMDb: "

  /** Lines 70-75: what `python3 title.py <title>` writes to stdout.  A failed
      request first prints its error line (line 60), then the failure message
      follows; an exception ends the script with a traceback on stderr and
      nothing on stdout. */
  function ScriptOutput(colloquial: String, apiKey: Option<String>, lookup: String -> OmdbReply): (out: String)
    ensures var res := GetProperTitle(colloquial, apiKey, lookup);
      && (res.Raise? ==> out == [])
      && (res.Return? && res.value.Some? ==> out == res.value.value + "\n")
    ensures apiKey.Some? && apiKey.value != [] && lookup(Query(colloquial)).RequestFailed? ==>
              out == RequestErrorPrefix + lookup(Query(colloquial)).message + "\n" + NotFoundMessage + "\n"
    ensures apiKey.Some? && apiKey.value != [] && lookup(Query(colloquial)).Reply? &&
            GetProperTitle(colloquial, apiKey, lookup) == Return(None) ==>
              out == NotFoundMessage + "\n"
  {
    if apiKey.None? || apiKey.value == [] then []
    else
      var reply := lookup(Query(colloquial));
      if reply.RequestFailed? then
        RequestErrorPrefix + reply.message + "\n" + NotFoundMessage + "\n"
      else
        match FormatReply(reply)
        case Raise(_) => []
        case Return(Some(t)) =>
          assert t[|t| - 1] == ')';
          if t != [] then t + "\n" else NotFoundMessage + "\n"
        case Return(None) => NotFoundMessage + "\n"
  }
}

=== FILE: video.dfy ===
/** scripts/video_test.py: a video passes when ffprobe succeeds on its first
    video stream and ffmpeg's blackdetect filter reports at most five black
    sections.  Both runs are parameters. */
module Video {
  import opened Outcomes
  import opened Strings

  const BlackStart: String := "black_start"

  /** Line 44: more black sections than this fail the video. */
  const MaxBlackSections: nat := 5

  /** check_video_stream.  Only SubprocessError is caught (lines 50-52); an
      OSError from starting either tool propagates.  The blackdetect run's
      return code is never read: its stderr alone decides. */
  function CheckVideoStream(probe: Run, black: Run): (r: Outcome<bool>)
    ensures probe.Failed? ==> r == if probe.error == SubprocessError then Return(false) else Raise(probe.error)
    ensures probe.Completed? && probe.returncode != 0 ==> r == Return(false)
    ensures probe.Completed? && probe.returncode == 0 && black.Failed? ==>
              r == if black.error == SubprocessError then Return(false) else Raise(black.error)
    ensures probe.Completed? && probe.returncode == 0 && black.Completed? ==>
              r == Return(Count(black.stderr, BlackStart) <= MaxBlackSections)
  {
    match probe
    case Failed(e) => if e == SubprocessError then Return(false) else Raise(e)
    case Completed(returncode, _, _) =>
      if returncode != 0 then Return(false)
      else match black
        case Failed(e) => if e == SubprocessError then Return(false) else Raise(e)
        case Completed(_, _, stderr) =>
          CountPositive(stderr, BlackStart);
          if Contains(stderr, BlackStart) && Count(stderr, BlackStart) > MaxBlackSections then Return(false)
          else Return(true)
  }

  /** Once the probe succeeds, more blackdetect output never turns a failing
      verdict into a passing one. */
  lemma MoreBlackNeverPasses(probe: Run, rc: int, rc': int, out: String, out': String, stderr: String, more: String)
    requires probe.Completed? && probe.returncode == 0
    requires CheckVideoStream(probe, Completed(rc, out, stderr)) == Return(false)
    ensures CheckVideoStream(probe, Completed(rc', out', stderr + more)) == Return(false)
  {
    CountAppend(stderr, more, BlackStart);
  }

  /** "black_start" starts with the only 'b' it holds, so its occurrences
      never overlap. */
  lemma BlackStartSelfDisjoint()
    ensures SelfDisjoint(BlackStart)
  {
    assert forall d | 0 < d < |BlackStart| :: BlackStart[d] != 'b';
    FirstCharOnce(BlackStart);
  }

  /** Whatever else ffmpeg writes, the verdict is whether "black_start" occurs
      at most five times in its stderr: one to five sections pass, six fail. */
  lemma BlackSectionThreshold(probe: Run, rc: int, out: String, stderr: String)
    requires probe.Completed? && probe.returncode == 0
    ensures CheckVideoStream(probe, Completed(rc, out, stderr)) == Return(Occurrences(stderr, BlackStart) <= 5)
  {
    BlackStartSelfDisjoint();
    CountIsOccurrences(stderr, BlackStart);
  }

  /** n black sections, one report line each. */
  function BlackReport(n: nat): String {
    if n == 0 then [] else BlackStart + "\n" + BlackReport(n - 1)
  }

  /** Each report line adds one occurrence: the line holds "black_start" once
      and the newline cannot start another. */
  lemma {:induction false} BlackReportCount(n: nat)
    ensures Count(BlackReport(n), BlackStart) == n
  {
    if n > 0 {
      var rest := BlackReport(n - 1);
      var tail := ['\n'] + rest;
      assert BlackReport(n) == BlackStart + tail;
      CountLeadingMatch(BlackStart, tail);
      NewlineStartsNoSection(rest);
      BlackReportCount(n - 1);
    }
  }

  lemma CountLeadingMatch(pat: String, tail: String)
    requires pat != []
    ensures Count(pat + tail, pat) == 1 + Count(tail, pat)
  {
    assert (pat + tail)[..|pat|] == pat;
    assert (pat + tail)[|pat|..] == tail;
  }

  lemma NewlineStartsNoSection(rest: String)
    ensures Count(['\n'] + rest, BlackStart) == Count(rest, BlackStart)
  {
    var t := ['\n'] + rest;
    assert t[1..] == rest;
    if |BlackStart| <= |t| {
      assert t[..|BlackStart|][0] == '\n' != BlackStart[0];
    }
  }

  /** With a report of n black sections the verdict is n <= 5. */
  lemma BlackReportThreshold(probe: Run, rc: int, out: String, n: nat)
    requires probe.Completed? && probe.returncode == 0
    ensures CheckVideoStream(probe, Completed(rc, out, BlackReport(n))) == Return(n <= 5)
  {
    BlackReportCount(n);
  }
}
